=== FILE: README.md ===
# PoolOverSocks5 relay core, modelled in Dafny

PoolOverSocks5 is a relay for cryptocurrency miners. Miners connect to it over TCP.
For each miner, a `Miner` session looks up the pool the miner should reach and dials that pool through a SOCKS5 proxy.
It then shuttles JSON messages both ways. Every message is reported to an HTTP backend.
A `Server` keeps the list of live sessions, accepts new miners and periodically posts statistics.
A `ConfigurationHandler` loads and validates a JSON key/value file, or writes a default one.
A `Database` class builds the MySQL connection string and the pool-lookup query, and retries until a connection opens.

The project models these four classes:

- `miner.dfy` (module `RelayMiner`) covers the per-miner session.
  - Its fields become the class `Miner`.
  - The session's behaviour is also written as pure functions on a `Session` value: `Setup`, `Relay`, `Exchange`, `RelayLoop`, `RunSpec`.
  - Each method is proved to produce exactly the state those functions give. The relay properties are proved as lemmas about the functions.
- `server.dfy` (module `RelayServer`) covers the miner registry.
  - The class `Server` holds the `connectedMiners` list.
  - `Cleanup` is specified by the filter `LiveMiners`. The accept step is `AcceptStep`. The statistics snapshot is specified by `SnapshotOf`.
- `configuration.dfy` (module `Configuration`) covers required-key validation, the default object, the constructor's choice between reading and writing, and the getters.
- `database.dfy` (module `MySqlStore`) covers the connection string, the query, the retry loop and the guarded close.
- `sockets.dfy` (module `Sockets`) models a `TcpClient` as a value. It has a status, a queue of chunks waiting to be received, the blocks sent so far, its timeouts and its remote address.
- `text.dfy` (module `Text`) holds the .NET behaviour the code depends on:
  - the ASCII codec;
  - `Int32.ToString` and `int.Parse`;
  - the part of `String.Format` the code uses.
- `wrappers.dfy` (module `Wrappers`) holds `Option`.

The environment is an input to the model:

- chunk arrivals and peer hang-ups: one `Round` per iteration of the relay loop;
- the JSON parse: an oracle `isJson`;
- the egress-address lookup and the backend uploads: `Option`/`bool` answers;
- the outcome of the proxy and pool setup: `SetupOutcome`;
- the configuration file: `ConfigFile`;
- each MySQL open attempt: `Attempt`.

Where the code throws, the model returns `None` or `false`, or records the outcome, except for the socket failures named under "## Left out".

## Model

| member | source | states |
|---|---|---|
| RelayMiner.Miner.constructor | PoolOverSocks5/Socket/Miner.cs:84-115 | a new session holds its id and the accepted client, no pool connection, `dispose` false and no cached egress address |
| RelayMiner.Miner.Run | PoolOverSocks5/Socket/Miner.cs:122-163 | the session ends in the state `RunSpec` gives: setup, then the relay loop only if a pool connection exists, then `dispose = true` |
| RelayMiner.Miner.OpenPoolConnection | PoolOverSocks5/Socket/Miner.cs:124-148 | pool information is assigned once the lookup succeeds; the pool connection and the timeouts only once the dial succeeds |
| RelayMiner.Miner.RelayUntilClosed | PoolOverSocks5/Socket/Miner.cs:150-159 | the loop (sleep, then exchange while both ends are Connected) reaches the state `RelayLoop` gives |
| RelayMiner.Miner.ExchangeData | PoolOverSocks5/Socket/Miner.cs:170-233 | miner→pool first, then pool→miner, each only when data is available; the first exception skips the rest and closes both ends |
| RelayMiner.Miner.RelayDirection | PoolOverSocks5/Socket/Miner.cs:174-195 | one direction is receive, decode, parse, send, log, with the result `Relay` gives |
| RelayMiner.Miner.ReceivePacket | PoolOverSocks5/Socket/Miner.cs:177-183 | a fresh 4096-byte buffer gets the source's next chunk; `bytesReceived` is its length; the text is its ASCII decoding |
| RelayMiner.Miner.ForwardPacket | PoolOverSocks5/Socket/Miner.cs:184-193 | the parse comes before the send; `bytesReceived` re-encoded bytes go to the other side; then the packet is logged |
| RelayMiner.Miner.SafeCloseBoth | PoolOverSocks5/Socket/Miner.cs:228-229 | both connections go through SafeClose and nothing else changes |
| RelayMiner.Miner.SetTimeouts | PoolOverSocks5/Socket/Miner.cs:258-262 | the miner send timeout becomes Minutes(2) and the pool send timeout Minutes(5); receive timeouts are untouched |
| RelayMiner.Miner.GetProxyRemoteAddress | PoolOverSocks5/Socket/Miner.cs:284-302 | a cached address is returned without a lookup; otherwise the lookup's answer is cached and returned |
| RelayMiner.Miner.LogMinerPacket | PoolOverSocks5/Socket/Miner.cs:312-329 | the upload succeeds only when the miner socket is not closed (Open or PeerClosed), an egress address is known and the post succeeds; the form carries id, user address, exit address, context, pool hostname and data |
| RelayMiner.Miner.GetMinerConnectionAddress | PoolOverSocks5/Socket/Miner.cs:337 | the remote address of the miner connection, which throws once that connection is closed |
| RelayMiner.Miner.LocalLoggerContextBuilder | PoolOverSocks5/Socket/Miner.cs:383 | the text is `context`, a space, the id in decimal, a slash and the pool hostname; the id parses back from between the space and the slash |
| RelayMiner.Miner.CanBeDisposed | PoolOverSocks5/Socket/Miner.cs:389 | the value is the session's `dispose` flag |
| RelayMiner.Fresh | PoolOverSocks5/Socket/Miner.cs:53-115 | a new session keeps the accepted client, has no pool connection, is not relaying, is not disposed and has no cached egress address |
| RelayMiner.Setup | PoolOverSocks5/Socket/Miner.cs:124-148 | a pool connection exists afterwards exactly when the dial succeeded; pool information is replaced by the looked-up one when the lookup succeeded, and kept otherwise; a successful dial sets both send timeouts; a failed setup leaves both connections alone; `dispose` and the egress cache are kept |
| RelayMiner.RelayLoop | PoolOverSocks5/Socket/Miner.cs:150-159 | the loop keeps the pool connection, `dispose` and the pool information |
| RelayMiner.RunSpec | PoolOverSocks5/Socket/Miner.cs:122-163 | a session whose loop guard has failed is disposed; `dispose` is never reset; a pool connection exists exactly when the dial succeeded; from an undisposed session, `dispose` ends true exactly when the session is no longer relaying |
| RelayMiner.Egress | PoolOverSocks5/Socket/Miner.cs:286-301 | a cached address wins; otherwise it is the lookup's answer; there is none only when neither exists |
| RelayMiner.JsonBody | PoolOverSocks5/Socket/Miner.cs:184 | the text handed to the JSON parser is the received text without its last character: one shorter, and a prefix of it |
| RelayMiner.Wrap32 | PoolOverSocks5/Socket/Miner.cs:269-276 | C# `int` multiplication wraps: the result is congruent to the product mod 2^32 and equals it when in range |
| RelayMiner.Seconds | PoolOverSocks5/Socket/Miner.cs:269 | `seconds * 1000` whenever that fits in an Int32 |
| RelayMiner.Minutes | PoolOverSocks5/Socket/Miner.cs:276 | `minutes * 60 * 1000` whenever that fits in an Int32 |
| RelayMiner.TimeoutValues | PoolOverSocks5/Socket/Miner.cs:258-276 | Minutes(2) is 120000 ms, Minutes(5) is 300000 ms and Seconds(60) is 60000 ms |
| RelayMiner.WithTimeouts | PoolOverSocks5/Socket/Miner.cs:258-262 | only the two send timeouts change, to 120000 and 300000 ms |
| RelayMiner.EgressStable | PoolOverSocks5/Socket/Miner.cs:284-302 | once an egress address is obtained, every later lookup returns that same address |
| RelayMiner.ReceiveStep | PoolOverSocks5/Socket/Miner.cs:177-183 | the source loses exactly its head chunk; the buffer starts with that chunk; the text is its ASCII decoding; nothing else changes |
| RelayMiner.LogStep | PoolOverSocks5/Socket/Miner.cs:312-329 | logging succeeds exactly when the miner socket is not closed, an egress address is known and the upload succeeds; only the egress cache can change, and a cached address is kept |
| RelayMiner.ForwardStep | PoolOverSocks5/Socket/Miner.cs:184-193 | the target gets nothing, or exactly `bytesReceived` bytes of the re-encoded text; the source is untouched |
| RelayMiner.Relay | PoolOverSocks5/Socket/Miner.cs:174-217 | one direction consumes the source's head chunk and forwards nothing or its sanitised bytes; it never changes either connection's status, `dispose`, the pool information or a cached egress address |
| RelayMiner.Drop | PoolOverSocks5/Socket/Miner.cs:220-232 | afterwards neither end is Connected, and only the two connection statuses changed |
| RelayMiner.Exchange | PoolOverSocks5/Socket/Miner.cs:170-233 | `dispose`, the pool information and a cached egress address are kept |
| RelayMiner.Sleep | PoolOverSocks5/Socket/Miner.cs:154 | during the pause the round's chunks are appended to each side's queue |
| RelayMiner.ForwardedBytes | PoolOverSocks5/Socket/Miner.cs:180-190 | the forwarded bytes have the chunk's length and equal the chunk exactly when it is all 7-bit ASCII |
| RelayMiner.ParseFailureNotForwarded | PoolOverSocks5/Socket/Miner.cs:184-190 | a chunk whose text minus its last character fails the JSON parse is not forwarded, and the direction throws |
| RelayMiner.ParsedChunkForwarded | PoolOverSocks5/Socket/Miner.cs:184-193 | a parsed chunk sent to a connected peer is forwarded; the direction succeeds exactly when the log upload does |
| RelayMiner.EmptyDirectionSkipped | PoolOverSocks5/Socket/Miner.cs:174-197 | a direction with nothing available is skipped: its target receives nothing |
| RelayMiner.MinerDirectionFirst | PoolOverSocks5/Socket/Miner.cs:174-233 | when the miner→pool direction throws, the pool→miner direction is untouched and both ends end up closed |
| RelayMiner.PoolDirectionFailureDrops | PoolOverSocks5/Socket/Miner.cs:197-229 | when miner→pool is skipped or succeeds and pool→miner then throws, neither end is Connected and what was sent to the pool stays sent |
| RelayMiner.DropIsFinal | PoolOverSocks5/Socket/Miner.cs:151-251 | after an exception the loop guard fails, further rounds change nothing, and closing again is a no-op |
| RelayMiner.ExchangeStep | PoolOverSocks5/Socket/Miner.cs:170-233 | per direction, one call forwards nothing or the sanitised head chunk; if the session is still relaying, the head was forwarded and removed |
| RelayMiner.SleepStream | PoolOverSocks5/Socket/Miner.cs:151-157 | sleeping moves the round's arrivals into the queue and sends nothing |
| RelayMiner.RelayLoopForwardsInOrder | PoolOverSocks5/Socket/Miner.cs:150-217 | over the whole loop each side receives the sanitised chunks of a prefix of what the other side sent, in order, without gaps or repeats |
| RelayMiner.RelayLoopKeepsSessionFacts | PoolOverSocks5/Socket/Miner.cs:150-159 | the relay loop never sets `dispose`, never changes the pool information and never replaces a cached egress address |
| RelayMiner.SetupFailureNeverRelays | PoolOverSocks5/Socket/Miner.cs:124-162 | if setup throws before the pool connection is assigned, nothing is received or sent and the session still ends disposed |
| RelayMiner.RunDisposesWhenLoopEnds | PoolOverSocks5/Socket/Miner.cs:53-162 | from an undisposed session, `dispose` ends true exactly when the loop guard has failed |
| RelayMiner.DialedSessionRelays | PoolOverSocks5/Socket/Miner.cs:133-262 | a successful dial to a connected pool leaves a relaying session with both send timeouts set |
| RelayServer.LiveMiners | PoolOverSocks5/Socket/Server.cs:108 | exactly the miners whose `dispose` is false are kept, never more than were listed |
| RelayServer.LiveMinersConcat | PoolOverSocks5/Socket/Server.cs:108 | the filter distributes over concatenation, so the kept miners keep their relative order |
| RelayServer.LiveMinersIdempotent | PoolOverSocks5/Socket/Server.cs:108 | a second cleanup with no flag change removes nothing |
| RelayServer.LiveMinersAllLive | PoolOverSocks5/Socket/Server.cs:108 | with no disposed miner listed, cleanup keeps the list as it is |
| RelayServer.LiveMinersDistinct | PoolOverSocks5/Socket/Server.cs:108 | cleanup never introduces a repeated session |
| RelayServer.EntryFor | PoolOverSocks5/Socket/Server.cs:138-153 | a miner's entry exists exactly when its socket is not closed (Open or PeerClosed) and an egress address is known; it carries the remote address, the egress address and the pool hostname |
| RelayServer.SnapshotOf | PoolOverSocks5/Socket/Server.cs:135-154 | one entry per miner in list order, or the first miner whose entry throws with all earlier entries built |
| RelayServer.Report | PoolOverSocks5/Socket/Server.cs:129-185 | an entry exception escapes; otherwise the post carries the count and the entries, and a failed post is caught |
| RelayServer.SnapshotCompleteIff | PoolOverSocks5/Socket/Server.cs:135-154 | the snapshot is complete exactly when every listed miner's socket is not closed (Open or PeerClosed) and has an egress address |
| RelayServer.Server.constructor | PoolOverSocks5/Socket/Server.cs:30 | the list starts empty |
| RelayServer.Server.Cleanup | PoolOverSocks5/Socket/Server.cs:108 | the list becomes `LiveMiners` of the old list |
| RelayServer.Server.GetMinerCount | PoolOverSocks5/Socket/Server.cs:110 | the count is the list's length |
| RelayServer.Server.AcceptStep | PoolOverSocks5/Socket/Server.cs:92-101 | cleanup first; the new miner's id is the post-cleanup count plus one; it is appended last, so the count is post-cleanup count plus one |
| RelayServer.Server.LogServerStatistics | PoolOverSocks5/Socket/Server.cs:129-185 | the outcome is `Report` of the snapshot; the list never changes; egress caches fill up to the miner whose entry throws |
| RelayServer.Server.ReportRound | PoolOverSocks5/Socket/Server.cs:113-126 | each report round runs Cleanup before the statistics are built from the cleaned list |
| RelayServer.DuplicateIdScenario | PoolOverSocks5/Socket/Server.cs:95-98 | two distinct miners both get id 2, and both are live (not disposed) and in the server's list |
| Configuration.ValueText | PoolOverSocks5/ConfigurationHandler.cs:62-130 | how `ToString` renders a string, an integer, a boolean and a JSON null |
| Configuration.DefaultConfiguration | PoolOverSocks5/ConfigurationHandler.cs:107-119 | the default object has exactly the nine listed keys, two of them with a trailing space |
| Configuration.FirstMissing | PoolOverSocks5/ConfigurationHandler.cs:56-75 | a reported key is one of the required keys and is absent from the object |
| Configuration.FirstMissingIsFirst | PoolOverSocks5/ConfigurationHandler.cs:16-75 | validation passes exactly when all required keys are present; otherwise the reported key is the first absent one in array order |
| Configuration.DefaultConfigurationKeys | PoolOverSocks5/ConfigurationHandler.cs:105-122 | the defaults have no proxy keys, and trailing spaces instead of "MySQL Database" and "MySQL Password" |
| Configuration.DefaultsFailValidation | PoolOverSocks5/ConfigurationHandler.cs:16-121 | validating the defaults would report "MySQL Database" |
| Configuration.GetText | PoolOverSocks5/ConfigurationHandler.cs:124-128 | a lookup succeeds exactly when the key is present, and gives its rendering |
| Configuration.GetInt | PoolOverSocks5/ConfigurationHandler.cs:126-130 | a port lookup fails whenever the key is absent |
| Configuration.PortReadsBack | PoolOverSocks5/ConfigurationHandler.cs:126-130 | an Int32 port stored as an integer or as decimal text reads back as itself |
| Configuration.TrailingSpaceDoesNotMatch | PoolOverSocks5/ConfigurationHandler.cs:17-114 | a value stored under `key + " "` cannot be read under `key` |
| Configuration.DefaultEndpoints | PoolOverSocks5/ConfigurationHandler.cs:115-130 | on the defaults the relay address is 0.0.0.0, the relay port 3333, and both proxy getters fail |
| Configuration.ConfigurationHandler.constructor | PoolOverSocks5/ConfigurationHandler.cs:21-32 | an existing file is read and validated (exit 0 on a missing key, 1 if unreadable); otherwise the defaults are written without validation and the process exits |
| Configuration.ConfigurationHandler.ReadConfiguration | PoolOverSocks5/ConfigurationHandler.cs:34-54 | a parsed file is loaded and validated; an unreadable one exits with code 1 |
| Configuration.ConfigurationHandler.ValidateConfiguration | PoolOverSocks5/ConfigurationHandler.cs:56-75 | the loop reports `FirstMissing` of the required keys |
| Configuration.ConfigurationHandler.CreateNewConfiguration | PoolOverSocks5/ConfigurationHandler.cs:105-122 | the loaded object becomes the default object |
| Configuration.ConfigurationHandler.WriteConfiguration | PoolOverSocks5/ConfigurationHandler.cs:77-103 | both paths exit the process: with code 0 after writing, 1 on failure |
| Configuration.ConfigurationHandler.GetRelayAddress | PoolOverSocks5/ConfigurationHandler.cs:124 | present exactly when "Relay Address" is a key, and then its rendering |
| Configuration.ConfigurationHandler.GetRelayPort | PoolOverSocks5/ConfigurationHandler.cs:126 | fails when "Relay Port" is absent, else int.Parse of its rendering |
| Configuration.ConfigurationHandler.GetProxyAddress | PoolOverSocks5/ConfigurationHandler.cs:128 | present exactly when "Proxy Address" is a key, and then its rendering |
| Configuration.ConfigurationHandler.GetProxyPort | PoolOverSocks5/ConfigurationHandler.cs:130 | fails when "Proxy Port" is absent, else int.Parse of its rendering |
| MySqlStore.RetryDelayIsNinetySeconds | PoolOverSocks5/Database.cs:50-52 | the retry pause is 90000 ms, three times the 30 seconds the message announces |
| MySqlStore.ConnectionStringShape | PoolOverSocks5/Database.cs:64-74 | formatting the template with hostname, port, database, username, password gives `server=H;user=U;database=D;port=P;password=W` |
| MySqlStore.QueryShape | PoolOverSocks5/Database.cs:82 | formatting the query template with the address gives the prefix, the address and a closing quote |
| MySqlStore.QueryEmbedsAddressVerbatim | PoolOverSocks5/Database.cs:79-82 | the address sits unescaped between the opening and the closing quote |
| MySqlStore.Retry | PoolOverSocks5/Database.cs:33-57 | an open connection ends the loop at once; there are never more failures than attempts |
| MySqlStore.RetryStopsAtFirstOpen | PoolOverSocks5/Database.cs:35-56 | the loop ends open exactly when some attempt opens, after as many failed attempts as precede the first success |
| MySqlStore.Database.constructor | PoolOverSocks5/Database.cs:28-31 | no connection exists yet |
| MySqlStore.Database.GenerateConnectionString | PoolOverSocks5/Database.cs:64-74 | the formatted string is `ConnectionStringOf(settings)`: each setting under its own key despite the permuted indices |
| MySqlStore.Database.MinerAddressQuery | PoolOverSocks5/Database.cs:82 | the query is the address between the prefix and a closing quote |
| MySqlStore.Database.SafeMySQLConnectionCreator | PoolOverSocks5/Database.cs:33-57 | the connection ends as `Retry` says; a 90000 ms pause follows each failure; an open connection is returned |
| MySqlStore.Database.SafeMySQLClose | PoolOverSocks5/Database.cs:59-62 | only an open connection is closed; with no connection the call throws |
| Sockets.Socket.Available | PoolOverSocks5/Socket/Miner.cs:174-197 | zero exactly when nothing is queued |
| Sockets.Socket.Receive | PoolOverSocks5/Socket/Miner.cs:180-203 | the head chunk is returned and removed, and nothing else changes |
| Sockets.Socket.Send | PoolOverSocks5/Socket/Miner.cs:190-213 | sending succeeds exactly on a connected socket, and appends the bytes |
| Sockets.Socket.RemoteEndPointAddress | PoolOverSocks5/Socket/Miner.cs:319-337 | the address is available exactly until the socket is closed |
| Sockets.SafeClose | PoolOverSocks5/Socket/Miner.cs:241-251 | null is left alone, a connected client is closed, a disconnected one is unchanged; afterwards it is not Connected |
| Sockets.SafeCloseIdempotent | PoolOverSocks5/Socket/Miner.cs:241-251 | closing twice equals closing once |
| Text.AsciiDecode | PoolOverSocks5/Socket/Miner.cs:183 | one char per byte; a char equals its byte exactly when the byte is 7-bit ASCII (others become '?') |
| Text.AsciiEncode | PoolOverSocks5/Socket/Miner.cs:190 | one byte per char, and every byte is 7-bit ASCII |
| Text.DecimalString | PoolOverSocks5/Socket/Miner.cs:318 | Int32.ToString: non-empty, ends in a digit, starts with '-' exactly for negatives, all digits otherwise |
| Text.ParseInt32 | PoolOverSocks5/ConfigurationHandler.cs:126 | int.Parse: the empty string fails, and a success needs non-blank text |
| Text.ParseRejectsNonDigit | PoolOverSocks5/ConfigurationHandler.cs:126 | text without surrounding white space that holds a character that is neither a digit nor a leading sign fails (FormatException) |
| Text.ParseOverflow | PoolOverSocks5/ConfigurationHandler.cs:126 | a digit string above Int32.MaxValue fails (OverflowException) |
| Text.ParseSuccessMeaning | PoolOverSocks5/ConfigurationHandler.cs:126 | a success means the trimmed text is an optional sign and at least one digit, and the result is their signed value |
| Text.ParseDigits | PoolOverSocks5/ConfigurationHandler.cs:126 | a plain digit string whose value fits in an Int32 parses to that value |
| Text.Format | PoolOverSocks5/Database.cs:66-73 | String.Format: the empty format gives ""; a lone '}' and an index with no argument throw |
| Text.Sanitized | PoolOverSocks5/Socket/Miner.cs:183-190 | ASCII decoding and re-encoding keeps the length and replaces each byte above 0x7F by '?' |
| Text.AsciiRoundTrip | PoolOverSocks5/Socket/Miner.cs:183-190 | the re-encoded bytes equal the received ones exactly when all are 7-bit ASCII |
| Text.DigitsRoundTrip | PoolOverSocks5/Socket/Miner.cs:318 | the decimal digits of a number denote that number |
| Text.ParseDecimalRoundTrip | PoolOverSocks5/ConfigurationHandler.cs:126-130 | int.Parse of an Int32 printed in decimal gives it back |
| Text.FormatLiteral | PoolOverSocks5/Database.cs:67 | text without braces passes through String.Format unchanged |
| Text.FormatItem | PoolOverSocks5/Database.cs:67 | a format item `{i}` is replaced by the i-th argument |

## Left out

- RelayMiner.Miner.Run: the relay loop runs for a finite script of rounds. When the script ends while both ends are still Connected, the source would keep looping; the model stops there with `dispose` still false.
- Connections are values held in the session's fields. `TcpClient` aliasing and the underlying `Socket` object are not modelled.
- `TcpClient.Connected` is simplified. A peer hang-up makes it false at once, whereas .NET only notices at the next I/O. `Available` counts queued bytes, and one `Receive` returns exactly one queued chunk.
- Sockets.Socket.Receive always returns the head chunk. A `Receive` on a reset connection throws in .NET, and the catch then closes both ends; the model can express such a drop only through the parse oracle or a peer hang-up.
- Sockets.Socket.Send always succeeds on an `Open` socket. A .NET send can also fail on a connection reset or when the SendTimeout set by SetTimeouts expires. The model can express such a failure only as a peer hang-up during the sleep before the exchange.
- The SOCKS5 proxy client, `GetPoolInformationForAddress` and the pool dial are reduced to their outcome (`SetupOutcome`). The SOCKS5 handshake belongs to an external library.
- JSON parsing (`JObject.Parse`) is an oracle on the text. `parsedSerializer` holds the parsed text, not a JSON tree. The console log of the parsed packet (`LogResponderHandler`, `SerializeObject`) is left out as console output.
- The egress lookup through `SocksWebProxy` to ipify and every `WebClient.UploadValues` call are answers supplied with each round: a string or a failure, success or failure. `BackendLogger.cs` and `BackendConnector.cs` are not part of this model.
- Threads and `Thread.Sleep` are not modelled. The listener, the reporter and each miner thread are one sequential interleaving, and the unsynchronised sharing of `ConnectedMiners` is left out.
- Console output, `Console.ReadLine` and `Environment.Exit` are left out. The exit code is recorded in `ConfigurationHandler.exitCode`.
- Reading and writing the configuration file are reduced to `ConfigFile` and a success flag.
- The MySQL driver is reduced to one `Attempt` outcome per loop iteration. `ExecuteReader` and the reader results of `GetMinerAddressInformation` are not modelled; only its query text is.
- MySqlStore.Database.SafeMySQLConnectionCreator: modelled for a finite script of attempts. When no attempt opens, the result is `None`, where the source would retry forever.
- Text.ParseInt32 models `int.Parse` with the invariant culture's digits, sign and white space only. Text.Format models `String.Format` only with one-digit indices, and without alignment or format strings.
- Configuration.ValueText: there is no case for a JSON float. Newtonsoft keeps a number such as `3333.0` as a float token whose `ToString()` gives "3333", so the real port getters accept it; the model can express that only as a `JComposite` with that rendering. Nested arrays and objects are kept as their rendered text. Integer rendering assumes the invariant culture.
- The SOCKS5 client can fail before a pool hostname exists. In that case the hostname stays "" (`NO_POOL_INFORMATION`); the source keeps a default struct whose hostname is null.
- The Miner members that `Server.cs` reads but `Miner.cs` does not define are supplied as `AbsentFields`. These are `GetMinerIdentificationNumber`, `user_id`, `pool_id`, `name`, `packets_sent` and `bandwidth`.
- The MySQL getters that `Database.cs` calls but the configuration handler does not define are supplied as `MySqlSettings`.
- RelayMiner.Miner.LocalLoggerContextBuilder requires an id in the Int32 range. The accept step's `Count + 1` is not bounded in the model, where C# would wrap.
- RelayServer.Server.LogServerStatistics: an exception while building an entry, such as a failed egress lookup for a listed miner, escapes the method because it is outside the `try`. The model reports it as `Escaped`. In .NET that exception is unhandled on the reporter thread, which terminates the whole process: the relay and every miner session stop. The model does not capture that termination.
- The listener setup in `Work` (binding, starting the reporter) and `FailedToBindException` are left out as socket and console I/O. `GetUpdateFrequency` is not defined in the configuration handler and is only a pause length.
- The form fields `password`, `server_name` and `server_broadcast_hostname` come from configuration getters that are not part of this model. They are left out of `PacketReport` and `StatisticsPost`.

=== FILE: configuration.dfy ===
/** The configuration handler (PoolOverSocks5.ConfigurationHandler): the
 *  loaded key/value object, the required-key validation, the default object
 *  written on first start, the constructor's choice between the two, and the
 *  address and port getters.
 *
 *  The configuration file itself is an input: whether it exists, and if so
 *  whether it reads as a JSON object. `Environment.Exit` is recorded as the
 *  exit code the constructor ends the process with. */
module Configuration {
  import opened Wrappers
  import opened Text

  /** A top-level value of the configuration object. `JComposite` is a nested
   *  array or object, kept as the text its ToString() renders. */
  datatype JsonValue =
    | JString(s: string)
    | JInteger(i: int)
    | JBoolean(b: bool)
    | JNull
    | JComposite(rendered: string)

  /** JToken.ToString() of a value: a string renders as itself, an integer
   *  in decimal, a boolean as "True"/"False", a JSON null as "". */
  function ValueText(v: JsonValue): (t: string)
    ensures v.JString? ==> t == v.s
    ensures v.JInteger? ==> t == DecimalString(v.i)
    ensures v.JBoolean? ==> t == (if v.b then "True" else "False")
    ensures v.JNull? ==> t == ""
  {
    match v
    case JString(s) => s
    case JInteger(i) => DecimalString(i)
    case JBoolean(b) => if b then "True" else "False"
    case JNull => ""
    case JComposite(rendered) => rendered
  }

  /** The object the handler holds: property name to value (JObject property
   *  names are unique and matched exactly, with ordinal comparison). */
  type ConfigObject = map<string, JsonValue>

  const REQUIRED_KEYS: seq<string> := [
    "MySQL Hostname", "MySQL Port", "MySQL Database", "MySQL Username", "MySQL Password",
    "Proxy Address", "Proxy Port"
  ]

  /** The object CreateNewConfiguration builds: nine keys, two of which end
   *  in a space. */
  function DefaultConfiguration(): (r: ConfigObject)
    ensures r.Keys ==
      {"MySQL Hostname", "MySQL Port", "MySQL Database ", "MySQL Username", "MySQL Password ",
       "Relay Address", "Relay Port", "Tor Address", "Tor Port"}
  {
    map[
      "MySQL Hostname" := JString("127.0.0.1"),
      "MySQL Port" := JInteger(3306),
      "MySQL Database " := JString("AnonymousPoolRouting"),
      "MySQL Username" := JString("router"),
      "MySQL Password " := JString(""),
      "Relay Address" := JString("0.0.0.0"),
      "Relay Port" := JInteger(3333),
      "Tor Address" := JString("0.0.0.0"),
      "Tor Port" := JInteger(3333)
    ]
  }

  /** The first of `keys`, in order, that the object lacks. */
  function FirstMissing(config: ConfigObject, keys: seq<string>): (r: Option<string>)
    ensures r.Some? ==> r.value in keys && r.value !in config
    decreases |keys|
  {
    if keys == [] then None
    else if keys[0] !in config then Some(keys[0])
    else FirstMissing(config, keys[1..])
  }

  /** Validation reports nothing exactly when every key is present; otherwise
   *  it reports the first absent key in array order, all keys before it
   *  being present. */
  lemma {:induction false} FirstMissingIsFirst(config: ConfigObject, keys: seq<string>)
    ensures FirstMissing(config, keys).None? <==> forall k :: k in keys ==> k in config
    ensures FirstMissing(config, keys).Some? ==>
      exists i :: 0 <= i < |keys| && keys[i] == FirstMissing(config, keys).value
        && forall j :: 0 <= j < i ==> keys[j] in config
    decreases |keys|
  {
    if keys != [] && keys[0] in config {
      FirstMissingIsFirst(config, keys[1..]);
      if FirstMissing(config, keys[1..]).Some? {
        var i :| 0 <= i < |keys[1..]| && keys[1..][i] == FirstMissing(config, keys[1..]).value
          && forall j :: 0 <= j < i ==> keys[1..][j] in config;
        assert keys[i + 1] == FirstMissing(config, keys).value;
        assert forall j :: 0 <= j < i + 1 ==> keys[j] in config by {
          forall j | 0 <= j < i + 1
            ensures keys[j] in config
          {
            if j > 0 {
              assert keys[j] == keys[1..][j - 1];
            }
          }
        }
      } else {
        forall k | k in keys
          ensures k in config
        {
          if k != keys[0] {
            assert k in keys[1..];
          }
        }
      }
    }
  }

  /** Neither proxy key is among the defaults, and the two MySQL keys carry
   *  a trailing space instead of the required names. */
  lemma DefaultConfigurationKeys()
    ensures "Proxy Address" !in DefaultConfiguration() && "Proxy Port" !in DefaultConfiguration()
    ensures "MySQL Database" !in DefaultConfiguration() && "MySQL Password" !in DefaultConfiguration()
  {
  }

  /** The defaults would not pass validation: the key with the trailing space
   *  does not satisfy the required "MySQL Database", which is reported first. */
  lemma DefaultsFailValidation()
    ensures FirstMissing(DefaultConfiguration(), REQUIRED_KEYS) == Some("MySQL Database")
  {
    var d := DefaultConfiguration();
    assert "MySQL Hostname" in d && "MySQL Port" in d;
    assert REQUIRED_KEYS[2..][0] == "MySQL Database";
    DefaultConfigurationKeys();
  }

  /** A getter's `GetValue(key).ToString()`; a missing key gives a null token
   *  and the call throws. */
  function GetText(config: ConfigObject, key: string): (r: Option<string>)
    ensures r.Some? <==> key in config
    ensures r.Some? ==> r.value == ValueText(config[key])
  {
    if key in config then Some(ValueText(config[key])) else None
  }

  /** A port getter's `int.Parse(GetValue(key).ToString())`. */
  function GetInt(config: ConfigObject, key: string): (r: Option<Int32>)
    ensures r.Some? ==> key in config
  {
    match GetText(config, key)
    case None => None
    case Some(t) => ParseInt32(t)
  }

  /** A port stored as a JSON integer, or as a decimal string, in the Int32
   *  range reads back as itself. */
  lemma PortReadsBack(config: ConfigObject, key: string, port: Int32)
    ensures GetInt(config[key := JInteger(port)], key) == Some(port)
    ensures GetInt(config[key := JString(DecimalString(port))], key) == Some(port)
  {
    ParseDecimalRoundTrip(port);
  }

  /** Exact matching: a value stored under a key with a trailing space cannot
   *  be read under the key without it. */
  lemma TrailingSpaceDoesNotMatch(config: ConfigObject, key: string, v: JsonValue)
    requires key !in config
    ensures GetText(config[key + " " := v], key).None?
  {
    assert key + " " != key by {
      assert |key + " "| != |key|;
    }
  }

  class ConfigurationHandler {
    var loadedConfiguration: ConfigObject
    /** The code the constructor passes to Environment.Exit, if it does. */
    var exitCode: Option<int>

    /** The constructor: read and validate an existing file; otherwise build
     *  the defaults and write them, without validating. */
    constructor(file: ConfigFile, writeSucceeds: bool)
      ensures file.Parsed? ==> (loadedConfiguration == file.json
        && exitCode == (if FirstMissing(file.json, REQUIRED_KEYS).Some? then Some(0) else None))
      ensures file.Unreadable? ==> exitCode == Some(1)
      ensures file.Missing? ==> (loadedConfiguration == DefaultConfiguration()
        && exitCode == Some(if writeSucceeds then 0 else 1))
    {
      loadedConfiguration := map[];
      exitCode := None;
      new;
      if !file.Missing? {
        ReadConfiguration(file);
      } else {
        CreateNewConfiguration();
        WriteConfiguration(writeSucceeds);
      }
    }

    /** ReadConfiguration: load the object and validate it; a file that does
     *  not read as a JSON object ends the process with code 1. */
    method ReadConfiguration(file: ConfigFile)
      requires !file.Missing? && exitCode.None?
      modifies this
      ensures file.Unreadable? ==> exitCode == Some(1) && loadedConfiguration == old(loadedConfiguration)
      ensures file.Parsed? ==> (loadedConfiguration == file.json
        && exitCode == (if FirstMissing(file.json, REQUIRED_KEYS).Some? then Some(0) else None))
    {
      match file {
        case Unreadable =>
          exitCode := Some(1);
        case Parsed(json) =>
          loadedConfiguration := json;
          var missing := ValidateConfiguration();
          if missing.Some? {
            exitCode := Some(0);
          }
      }
    }

    /** ValidateConfiguration: the required keys in array order; the first
     *  one missing is reported (and the process then exits with code 0). */
    method ValidateConfiguration() returns (missing: Option<string>)
      ensures missing == FirstMissing(loadedConfiguration, REQUIRED_KEYS)
    {
      var i := 0;
      while i < |REQUIRED_KEYS|
        invariant 0 <= i <= |REQUIRED_KEYS|
        invariant FirstMissing(loadedConfiguration, REQUIRED_KEYS[i..]) == FirstMissing(loadedConfiguration, REQUIRED_KEYS)
      {
        assert REQUIRED_KEYS[i..][1..] == REQUIRED_KEYS[i + 1..];
        if REQUIRED_KEYS[i] !in loadedConfiguration {
          return Some(REQUIRED_KEYS[i]);
        }
        i := i + 1;
      }
      return None;
    }

    /** CreateNewConfiguration: install the default object. */
    method CreateNewConfiguration()
      modifies this`loadedConfiguration
      ensures loadedConfiguration == DefaultConfiguration()
    {
      loadedConfiguration := DefaultConfiguration();
    }

    /** WriteConfiguration: both the success and the failure path end the
     *  process, with code 0 and 1. */
    method WriteConfiguration(succeeds: bool)
      modifies this`exitCode
      ensures exitCode == Some(if succeeds then 0 else 1)
    {
      if succeeds {
        exitCode := Some(0);
      } else {
        exitCode := Some(1);
      }
    }

    /** The getters: `GetValue(key).ToString()`, through int.Parse for the
     *  ports; `None` when the key is absent (the call throws) or the port
     *  text is not an Int32. */
    function GetRelayAddress(): (r: Option<string>)
      reads this
      ensures r.Some? <==> "Relay Address" in loadedConfiguration
      ensures r.Some? ==> r.value == ValueText(loadedConfiguration["Relay Address"])
    {
      GetText(loadedConfiguration, "Relay Address")
    }

    function GetRelayPort(): (r: Option<Int32>)
      reads this
      ensures "Relay Port" !in loadedConfiguration ==> r.None?
      ensures "Relay Port" in loadedConfiguration ==> r == ParseInt32(ValueText(loadedConfiguration["Relay Port"]))
    {
      GetInt(loadedConfiguration, "Relay Port")
    }

    function GetProxyAddress(): (r: Option<string>)
      reads this
      ensures r.Some? <==> "Proxy Address" in loadedConfiguration
      ensures r.Some? ==> r.value == ValueText(loadedConfiguration["Proxy Address"])
    {
      GetText(loadedConfiguration, "Proxy Address")
    }

    function GetProxyPort(): (r: Option<Int32>)
      reads this
      ensures "Proxy Port" !in loadedConfiguration ==> r.None?
      ensures "Proxy Port" in loadedConfiguration ==> r == ParseInt32(ValueText(loadedConfiguration["Proxy Port"]))
    {
      GetInt(loadedConfiguration, "Proxy Port")
    }
  }

  /** The configuration file as the constructor finds it: absent, present
   *  but not readable as a JSON object, or parsed. */
  datatype ConfigFile = Missing | Unreadable | Parsed(json: ConfigObject)

  /** On the defaults the relay listens on 0.0.0.0:3333, and neither proxy
   *  getter succeeds. */
  lemma DefaultEndpoints()
    ensures GetText(DefaultConfiguration(), "Relay Address") == Some("0.0.0.0")
    ensures GetInt(DefaultConfiguration(), "Relay Port") == Some(3333)
    ensures GetText(DefaultConfiguration(), "Proxy Address").None?
    ensures GetInt(DefaultConfiguration(), "Proxy Port").None?
  {
    ParseDecimalRoundTrip(3333);
    DefaultConfigurationKeys();
  }
}

=== FILE: database.dfy ===
/** The MySQL access class (Router.Database): the connection string and the
 *  miner-address query it formats, the loop that retries until a connection
 *  is open, and the guarded close.
 *
 *  The driver is not modelled: what one connection attempt does is an input,
 *  and the connection is a value with a connection string and a state. */
module MySqlStore {
  import opened Wrappers
  import opened Text

  /** The states of System.Data.ConnectionState this class can observe. */
  datatype ConnectionState = Closed | Open | Broken

  datatype MySqlConnection = MySqlConnection(connectionString: string, state: ConnectionState)

  /** The MySQL settings the configuration getters return (hostname, port,
   *  database, username, password), as the strings String.Format inserts. */
  datatype MySqlSettings = MySqlSettings(hostname: string, port: string, database: string, username: string, password: string)

  /** The connection-string template, written as its literal runs and its
   *  format items. */
  const CONNECTION_STRING_FORMAT: string :=
    "server=" + "{0}" + ";user=" + "{3}" + ";database=" + "{2}" + ";port=" + "{1}" + ";password=" + "{4}"

  /** The query text before the address. */
  const QUERY_PREFIX: string := "SELECT pool_address, " + "pool_port WHERE " + "user_address = '"

  /** The query template (it has no FROM clause). */
  const MINER_ADDRESS_QUERY_FORMAT: string := QUERY_PREFIX + "{0}" + "'"

  /** The pause after a failed attempt, `30 * 3000` milliseconds. */
  const RETRY_DELAY_MS: int := 30 * 3000

  /** The retry pause is 90 seconds, three times the 30 the log message
   *  announces. */
  lemma RetryDelayIsNinetySeconds()
    ensures RETRY_DELAY_MS == 90000 == 3 * 30 * 1000
  {
  }

  /** The connection string with the settings in place. */
  function ConnectionStringOf(s: MySqlSettings): string {
    "server=" + s.hostname + ";user=" + s.username + ";database=" + s.database
      + ";port=" + s.port + ";password=" + s.password
  }

  /** Formatting the template with the arguments in the order hostname, port,
   *  database, username, password puts each setting under its own key:
   *  index 0 is the server, 3 the user, 2 the database, 1 the port and 4 the
   *  password. */
  lemma ConnectionStringShape(s: MySqlSettings)
    ensures Format(CONNECTION_STRING_FORMAT, [s.hostname, s.port, s.database, s.username, s.password])
      == Some(ConnectionStringOf(s))
  {
    var args := [s.hostname, s.port, s.database, s.username, s.password];
    assert ['{', DigitChar(0), '}'] == "{0}" && ['{', DigitChar(1), '}'] == "{1}";
    assert ['{', DigitChar(2), '}'] == "{2}" && ['{', DigitChar(3), '}'] == "{3}";
    assert ['{', DigitChar(4), '}'] == "{4}";
    assert NoBraces("server=") && NoBraces(";user=") && NoBraces(";database=");
    assert NoBraces(";port=") && NoBraces(";password=");
    assert Format("", args) == Some("");
    FormatItemThen(4, "", args, "");
    assert "{4}" + "" == "{4}" && s.password + "" == s.password;
    var f, t := "{4}", s.password;
    FormatLiteralThen(";password=", f, args, t);
    f, t := ";password=" + f, ";password=" + t;
    FormatItemThen(1, f, args, t);
    f, t := "{1}" + f, s.port + t;
    FormatLiteralThen(";port=", f, args, t);
    f, t := ";port=" + f, ";port=" + t;
    FormatItemThen(2, f, args, t);
    f, t := "{2}" + f, s.database + t;
    FormatLiteralThen(";database=", f, args, t);
    f, t := ";database=" + f, ";database=" + t;
    FormatItemThen(3, f, args, t);
    f, t := "{3}" + f, s.username + t;
    FormatLiteralThen(";user=", f, args, t);
    f, t := ";user=" + f, ";user=" + t;
    FormatItemThen(0, f, args, t);
    f, t := "{0}" + f, s.hostname + t;
    FormatLiteralThen("server=", f, args, t);
    f, t := "server=" + f, "server=" + t;
    ConnectionPiecesNest(s);
  }

  /** The template and the connection string, regrouped from the right as the
   *  formatting proof builds them. */
  lemma ConnectionPiecesNest(s: MySqlSettings)
    ensures CONNECTION_STRING_FORMAT == "server=" + ("{0}" + (";user=" + ("{3}" + (";database=" + ("{2}"
      + (";port=" + ("{1}" + (";password=" + "{4}"))))))))
    ensures ConnectionStringOf(s) == "server=" + (s.hostname + (";user=" + (s.username + (";database=" + (s.database
      + (";port=" + (s.port + (";password=" + s.password))))))))
  {
  }

  /** The query text for a miner's address. */
  function QueryFor(address: string): string {
    QUERY_PREFIX + address + "'"
  }

  /** Formatting the query template with the address gives QueryFor. */
  lemma QueryShape(address: string)
    ensures Format(MINER_ADDRESS_QUERY_FORMAT, [address]) == Some(QueryFor(address))
  {
    var args := [address];
    assert ['{', DigitChar(0), '}'] == "{0}";
    assert NoBraces("SELECT pool_address, ") && NoBraces("pool_port WHERE ") && NoBraces("user_address = '");
    assert NoBraces("'") && Format("", args) == Some("") && "'" + "" == "'";
    FormatLiteralThen("'", "", args, "");
    FormatItemThen(0, "'", args, "'");
    var f, t := "{0}" + "'", address + "'";
    FormatLiteralThen("user_address = '", f, args, t);
    f, t := "user_address = '" + f, "user_address = '" + t;
    FormatLiteralThen("pool_port WHERE ", f, args, t);
    f, t := "pool_port WHERE " + f, "pool_port WHERE " + t;
    FormatLiteralThen("SELECT pool_address, ", f, args, t);
    f, t := "SELECT pool_address, " + f, "SELECT pool_address, " + t;
    assert f == MINER_ADDRESS_QUERY_FORMAT;
    assert t == QueryFor(address);
  }

  /** The query embeds the address verbatim between single quotes: nothing
   *  is escaped, so a quote inside the address ends the literal early. */
  lemma QueryEmbedsAddressVerbatim(address: string)
    ensures var q := QueryFor(address);
      && q[..|q| - |address| - 1] == QUERY_PREFIX
      && q[|q| - |address| - 1..|q| - 1] == address
      && q[|q| - 1] == '\''
  {
  }

  /** What one pass of the retry loop's `try` block does: `new
   *  MySqlConnection(...)` throws (the field keeps its old value), or Open()
   *  throws (the new, closed connection is kept), or the connection opens. */
  datatype Attempt = ConstructorThrows | OpenThrows | Opens

  predicate IsOpen(c: Option<MySqlConnection>) {
    c.Some? && c.value.state == Open
  }

  /** The retry loop as a function of a finite script of attempts: the
   *  connection it ends with and the number of failed attempts (each followed
   *  by a pause). */
  function Retry(c: Option<MySqlConnection>, attempts: seq<Attempt>, connectionString: string): (r: (Option<MySqlConnection>, nat))
    ensures IsOpen(c) ==> r == (c, 0)
    ensures r.1 <= |attempts|
    decreases |attempts|
  {
    if IsOpen(c) || attempts == [] then (c, 0)
    else
      var next :=
        match attempts[0]
        case ConstructorThrows => c
        case OpenThrows => Some(MySqlConnection(connectionString, Closed))
        case Opens => Some(MySqlConnection(connectionString, Open));
      var (final, failures) := Retry(next, attempts[1..], connectionString);
      (final, if attempts[0] == Opens then failures else failures + 1)
  }

  /** The loop stops only on an open connection: starting from a connection
   *  that is not open, it ends open exactly when some attempt opens, after as
   *  many failures as attempts before the first success, holding a
   *  connection built from the current connection string. */
  lemma {:induction false} RetryStopsAtFirstOpen(c: Option<MySqlConnection>, attempts: seq<Attempt>, connectionString: string)
    requires !IsOpen(c)
    ensures var (final, failures) := Retry(c, attempts, connectionString);
      && (IsOpen(final) <==> Opens in attempts)
      && (Opens in attempts ==>
            && final == Some(MySqlConnection(connectionString, Open))
            && failures < |attempts| && attempts[failures] == Opens && Opens !in attempts[..failures])
      && (Opens !in attempts ==> failures == |attempts|)
    decreases |attempts|
  {
    if attempts != [] {
      var next :=
        match attempts[0]
        case ConstructorThrows => c
        case OpenThrows => Some(MySqlConnection(connectionString, Closed))
        case Opens => Some(MySqlConnection(connectionString, Open));
      if attempts[0] != Opens {
        RetryStopsAtFirstOpen(next, attempts[1..], connectionString);
        var (final, failures) := Retry(next, attempts[1..], connectionString);
        assert Opens in attempts <==> Opens in attempts[1..] by {
          assert attempts == [attempts[0]] + attempts[1..];
        }
        if Opens in attempts {
          assert attempts[..failures + 1] == [attempts[0]] + attempts[1..][..failures];
        }
      } else {
        assert attempts[..0] == [];
      }
    }
  }

  class Database {
    const settings: MySqlSettings
    var connection: Option<MySqlConnection>

    constructor(settings: MySqlSettings)
      ensures this.settings == settings && connection.None?
    {
      this.settings := settings;
      connection := None;
    }

    /** GenerateConnectionString: `server=H;user=U;database=D;port=P;password=W`. */
    function GenerateConnectionString(): (r: string)
      ensures r == ConnectionStringOf(settings)
    {
      ConnectionStringShape(settings);
      Format(CONNECTION_STRING_FORMAT, [settings.hostname, settings.port, settings.database, settings.username, settings.password]).value
    }

    /** The query GetMinerAddressInformation builds from the miner's remote
     *  address. */
    function MinerAddressQuery(address: string): (q: string)
      ensures q == QueryFor(address)
    {
      QueryShape(address);
      Format(MINER_ADDRESS_QUERY_FORMAT, [address]).value
    }

    /** SafeMySQLConnectionCreator, for a finite script of attempts: loop
     *  while the field is null or not open. The result is the open
     *  connection, or `None` when the script ends first (where the source
     *  would go on retrying); `sleptMs` is the total pause. */
    method SafeMySQLConnectionCreator(attempts: seq<Attempt>) returns (result: Option<MySqlConnection>, sleptMs: int)
      modifies this`connection
      ensures connection == Retry(old(connection), attempts, ConnectionStringOf(settings)).0
      ensures sleptMs == RETRY_DELAY_MS * Retry(old(connection), attempts, ConnectionStringOf(settings)).1
      ensures result == if IsOpen(connection) then connection else None
    {
      var connectionString := GenerateConnectionString();
      ghost var start := connection;
      var i := 0;
      sleptMs := 0;
      while (connection.None? || connection.value.state != Open) && i < |attempts|
        invariant 0 <= i <= |attempts|
        invariant Retry(connection, attempts[i..], connectionString).0 == Retry(start, attempts, connectionString).0
        invariant sleptMs + RETRY_DELAY_MS * Retry(connection, attempts[i..], connectionString).1
          == RETRY_DELAY_MS * Retry(start, attempts, connectionString).1
      {
        assert attempts[i..][1..] == attempts[i + 1..];
        match attempts[i] {
          case ConstructorThrows =>
            sleptMs := sleptMs + RETRY_DELAY_MS;
          case OpenThrows =>
            connection := Some(MySqlConnection(connectionString, Closed));
            sleptMs := sleptMs + RETRY_DELAY_MS;
          case Opens =>
            connection := Some(MySqlConnection(connectionString, Open));
        }
        i := i + 1;
      }
      result := if IsOpen(connection) then connection else None;
    }

    /** SafeMySQLClose: close the connection only when it is open. With no
     *  connection the state check throws (`ok` is false). */
    method SafeMySQLClose() returns (ok: bool)
      modifies this`connection
      ensures ok <==> old(connection).Some?
      ensures connection == if IsOpen(old(connection)) then Some(old(connection).value.(state := Closed)) else old(connection)
    {
      if connection.None? {
        return false;
      }
      if connection.value.state == Open {
        connection := Some(connection.value.(state := Closed));
      }
      return true;
    }
  }
}

=== FILE: miner.dfy ===
/** One miner session (Router.Socket.Miner): the setup that dials the pool
 *  through the SOCKS5 proxy, the relay loop that moves one chunk per
 *  direction per iteration, the teardown on the first exception and the
 *  one-way `dispose` flag the server polls.
 *
 *  The sockets are values held in the miner's fields; what the outside world
 *  does (chunks arriving, a peer hanging up, the JSON parser's verdict, the
 *  egress-address lookup, the backend upload) is passed in as parameters.
 *  `Session` is the value of all of a miner's fields, and the functions on
 *  it (`Relay`, `Exchange`, `RelayLoop`, `RunSpec`) specify the methods of
 *  class `Miner`. */
module RelayMiner {
  import opened Wrappers
  import opened Text
  import opened Sockets

  /** Miner.PoolConnectionInformation. The struct's default value has a null
   *  hostname, modelled as the empty string. */
  datatype PoolConnectionInformation = PoolConnectionInformation(hostname: string, port: int)

  const NO_POOL_INFORMATION := PoolConnectionInformation("", 0)

  /** How the `try` block at the start of Run ends. */
  datatype SetupOutcome =
    | ProxyClientFailed                        // new Socks5ProxyClient(...) throws
    | PoolLookupFailed                         // GetPoolInformationForAddress throws
    | DialFailed(info: PoolConnectionInformation)   // CreateConnection throws
    | Dialed(info: PoolConnectionInformation, pool: Socket)

  /** What the external services answer during one ExchangeData call: the
   *  body of the egress-address request through the proxy (`None`: it
   *  throws), and whether the backend upload of LogMinerPacket succeeds for
   *  the miner and for the pool direction. */
  datatype Responses = Responses(egressLookup: Option<string>, minerPacketLogged: bool, poolPacketLogged: bool)

  /** What happens during one Thread.Sleep(10) of the relay loop, and the
   *  answers the following ExchangeData call gets. */
  datatype Round = Round(
    fromMiner: seq<Chunk>,
    fromPool: seq<Chunk>,
    minerHangsUp: bool,
    poolHangsUp: bool,
    responses: Responses)

  /** Whether JObject.Parse accepts a text. */
  type JsonOracle = string -> bool

  datatype Direction = MinerToPool | PoolToMiner

  /** The fields of a Miner, as one value. */
  datatype Session = Session(
    minerConnection: Socket,
    poolConnection: Option<Socket>,
    poolInformation: PoolConnectionInformation,
    incomingData: seq<byte>,
    bytesReceived: int,
    incomingDataString: string,
    parsedSerializer: string,
    proxyResolvedRemoteAddress: Option<string>,
    dispose: bool)
  {
    /** The guard of the relay loop in Run. */
    predicate Relaying() {
      poolConnection.Some? && minerConnection.Connected() && poolConnection.value.Connected()
    }

    /** The connection a direction reads from. */
    function Source(d: Direction): Socket
      requires poolConnection.Some?
    {
      if d == MinerToPool then minerConnection else poolConnection.value
    }

    /** The connection a direction writes to. */
    function Target(d: Direction): Socket
      requires poolConnection.Some?
    {
      if d == MinerToPool then poolConnection.value else minerConnection
    }

    function WithSource(d: Direction, c: Socket): (s: Session)
      requires poolConnection.Some?
      ensures s.poolConnection.Some? && s.Source(d) == c && s.Target(d) == Target(d)
    {
      if d == MinerToPool then this.(minerConnection := c) else this.(poolConnection := Some(c))
    }

    function WithTarget(d: Direction, c: Socket): (s: Session)
      requires poolConnection.Some?
      ensures s.poolConnection.Some? && s.Target(d) == c && s.Source(d) == Source(d)
    {
      if d == MinerToPool then this.(poolConnection := Some(c)) else this.(minerConnection := c)
    }
  }

  /** The fields of a freshly constructed Miner. */
  function Fresh(client: Socket): (r: Session)
    ensures r.minerConnection == client && r.poolConnection.None? && !r.Relaying()
    ensures !r.dispose && r.proxyResolvedRemoteAddress.None?
  {
    Session(client, None, NO_POOL_INFORMATION, [], 0, "", "{}", None, false)
  }

  // ---------------------------------------------------------------------
  // Time helpers (C# `int` arithmetic, which wraps silently)

  const TWO_TO_THE_32: int := 0x1_0000_0000

  /** Two's-complement truncation of an integer to an Int32. */
  function Wrap32(x: int): (r: Int32)
    ensures INT32_MIN <= x <= INT32_MAX ==> r == x
    ensures (x - r) % TWO_TO_THE_32 == 0
  {
    (x - INT32_MIN) % TWO_TO_THE_32 + INT32_MIN
  }

  /** Miner.Seconds: seconds to milliseconds. */
  function Seconds(seconds: Int32): (ms: Int32)
    ensures -2147483 <= seconds <= 2147483 ==> ms == seconds * 1000
  {
    Wrap32(seconds * 1000)
  }

  /** Miner.Minutes: minutes to milliseconds, as `minutes * Seconds(60)`. */
  function Minutes(minutes: Int32): (ms: Int32)
    ensures -35791 <= minutes <= 35791 ==> ms == minutes * 60 * 1000
  {
    Wrap32(minutes * Seconds(60))
  }

  /** The two send timeouts SetTimeouts installs. */
  lemma TimeoutValues()
    ensures Minutes(2) == 120000 && Minutes(5) == 300000
    ensures Seconds(60) == 60000
  {
  }

  /** The effect of SetTimeouts: only the send timeouts change. */
  function WithTimeouts(s: Session): (r: Session)
    requires s.poolConnection.Some?
    ensures r.poolConnection.Some?
    ensures r.minerConnection.sendTimeout == 120000 && r.poolConnection.value.sendTimeout == 300000
    ensures r.minerConnection.receiveTimeout == s.minerConnection.receiveTimeout
    ensures r.poolConnection.value.receiveTimeout == s.poolConnection.value.receiveTimeout
    ensures r.minerConnection == s.minerConnection.(sendTimeout := r.minerConnection.sendTimeout)
    ensures r.poolConnection.value == s.poolConnection.value.(sendTimeout := r.poolConnection.value.sendTimeout)
    ensures r == s.(minerConnection := r.minerConnection, poolConnection := r.poolConnection)
  {
    TimeoutValues();
    s.(minerConnection := s.minerConnection.(sendTimeout := Minutes(2)),
       poolConnection := Some(s.poolConnection.value.(sendTimeout := Minutes(5))))
  }

  // ---------------------------------------------------------------------
  // One relay step, as functions

  /** GetProxyRemoteAddress: the cached address when there is one, else the
   *  answer of the lookup (which the method then caches). */
  function Egress(cache: Option<string>, lookup: Option<string>): (r: Option<string>)
    ensures cache.Some? ==> r == cache
    ensures r == cache || r == lookup
    ensures r.None? <==> cache.None? && lookup.None?
  {
    if cache.Some? then cache else lookup
  }

  /** Once an egress address has been obtained, every later call returns
   *  that same address, whatever a new lookup would answer. */
  lemma EgressStable(cache: Option<string>, first: Option<string>, later: seq<Option<string>>)
    requires Egress(cache, first).Some?
    ensures forall k :: 0 <= k < |later| ==> Egress(Egress(cache, first), later[k]) == Egress(cache, first)
  {
  }

  function Zeros(n: nat): (z: seq<byte>)
    ensures |z| == n
  {
    seq(n, _ => 0)
  }

  /** The text JObject.Parse is given: the received text without its last
   *  character. */
  function JsonBody(text: string): (r: string)
    requires |text| > 0
    ensures |r| == |text| - 1 && r <= text
  {
    text[..|text| - 1]
  }

  /** The first statements of one direction of ExchangeData: a fresh
   *  MAX_BUFFER_SIZE buffer receives the head chunk of the source, and the
   *  received bytes are decoded as ASCII. */
  function ReceiveStep(s: Session, d: Direction): (r: Session)
    requires s.poolConnection.Some? && s.Source(d).inbox != []
    ensures r.poolConnection.Some?
    ensures r.Source(d) == s.Source(d).(inbox := s.Source(d).inbox[1..]) && r.Target(d) == s.Target(d)
    ensures r.bytesReceived == |s.Source(d).inbox[0]| == |r.incomingDataString|
    ensures |r.incomingData| == MAX_BUFFER_SIZE && r.incomingData[..r.bytesReceived] == s.Source(d).inbox[0]
    ensures r.incomingDataString == AsciiDecode(s.Source(d).inbox[0])
    ensures r.dispose == s.dispose && r.poolInformation == s.poolInformation
    ensures r.parsedSerializer == s.parsedSerializer && r.proxyResolvedRemoteAddress == s.proxyResolvedRemoteAddress
  {
    var (chunk, source) := s.Source(d).Receive();
    var buffer := chunk + Zeros(MAX_BUFFER_SIZE - |chunk|);
    assert buffer[..|chunk|] == chunk;
    s.WithSource(d, source).(incomingData := buffer, bytesReceived := |chunk|, incomingDataString := AsciiDecode(chunk))
  }

  /** The last statement of one direction of ExchangeData: LogMinerPacket,
   *  which reads the miner's remote address (throwing once the miner
   *  connection is closed), then the egress address, then uploads. */
  function LogStep(s: Session, lookup: Option<string>, logged: bool): (r: (Session, bool))
    ensures r.1 <==> s.minerConnection.status != Closed && Egress(s.proxyResolvedRemoteAddress, lookup).Some? && logged
    ensures r.0 == s.(proxyResolvedRemoteAddress := r.0.proxyResolvedRemoteAddress)
    ensures s.proxyResolvedRemoteAddress.Some? ==> r.0.proxyResolvedRemoteAddress == s.proxyResolvedRemoteAddress
  {
    if s.minerConnection.RemoteEndPointAddress().None? then (s, false)
    else
      var exit := Egress(s.proxyResolvedRemoteAddress, lookup);
      (s.(proxyResolvedRemoteAddress := exit), exit.Some? && logged)
  }

  /** The middle of one direction of ExchangeData, after the receive: parse
   *  the text minus its last character as JSON, send `bytesReceived` bytes of
   *  the re-encoded text to the other side, then log the packet. The boolean
   *  is false when one of these steps throws. */
  function ForwardStep(s: Session, d: Direction, isJson: JsonOracle, lookup: Option<string>, logged: bool): (r: (Session, bool))
    requires s.poolConnection.Some? && 0 < s.bytesReceived <= |s.incomingDataString|
    ensures r.0.poolConnection.Some?
    ensures r.0.Source(d) == s.Source(d)
    ensures r.0.Target(d).sent == s.Target(d).sent
         || r.0.Target(d).sent == s.Target(d).sent + [AsciiEncode(s.incomingDataString)[..s.bytesReceived]]
    ensures r.0.Target(d) == s.Target(d).(sent := r.0.Target(d).sent)
    ensures r.0 == s.WithTarget(d, r.0.Target(d)).(parsedSerializer := r.0.parsedSerializer,
                                                   proxyResolvedRemoteAddress := r.0.proxyResolvedRemoteAddress)
    ensures s.proxyResolvedRemoteAddress.Some? ==> r.0.proxyResolvedRemoteAddress == s.proxyResolvedRemoteAddress
  {
    var text := s.incomingDataString;
    if !isJson(JsonBody(text)) then (s, false)
    else
      var s1 := s.(parsedSerializer := JsonBody(text));
      match s1.Target(d).Send(AsciiEncode(text)[..s.bytesReceived])
      case None => (s1, false)
      case Some(target) => LogStep(s1.WithTarget(d, target), lookup, logged)
  }

  /** One direction of ExchangeData, entered because `Available != 0`. */
  function Relay(s: Session, d: Direction, isJson: JsonOracle, lookup: Option<string>, logged: bool): (r: (Session, bool))
    requires s.poolConnection.Some? && s.Source(d).inbox != []
    ensures r.0.poolConnection.Some?
    ensures r.0.dispose == s.dispose && r.0.poolInformation == s.poolInformation
    ensures r.0.Source(d).inbox == s.Source(d).inbox[1..]
    ensures r.0.bytesReceived == |s.Source(d).inbox[0]|
    ensures r.0.incomingDataString == AsciiDecode(s.Source(d).inbox[0])
    ensures r.0.Target(d).sent == s.Target(d).sent
         || r.0.Target(d).sent == s.Target(d).sent + [Sanitized(s.Source(d).inbox[0])]
    ensures r.0.Target(d).inbox == s.Target(d).inbox && r.0.Source(d).sent == s.Source(d).sent
    ensures r.0.minerConnection.status == s.minerConnection.status
    ensures r.0.poolConnection.value.status == s.poolConnection.value.status
    ensures s.proxyResolvedRemoteAddress.Some? ==> r.0.proxyResolvedRemoteAddress == s.proxyResolvedRemoteAddress
  {
    var s1 := ReceiveStep(s, d);
    assert AsciiEncode(s1.incomingDataString)[..s1.bytesReceived] == Sanitized(s.Source(d).inbox[0]);
    ForwardStep(s1, d, isJson, lookup, logged)
  }

  /** The catch block of ExchangeData: SafeClose on both connections. */
  function Drop(s: Session): (r: Session)
    ensures !r.Relaying()
    ensures r.poolConnection.Some? <==> s.poolConnection.Some?
    ensures r == s.(minerConnection := r.minerConnection, poolConnection := r.poolConnection)
    ensures r.minerConnection == s.minerConnection.(status := r.minerConnection.status)
    ensures r.poolConnection.Some? ==> r.poolConnection.value == s.poolConnection.value.(status := r.poolConnection.value.status)
  {
    s.(minerConnection := SafeClose(Some(s.minerConnection)).value, poolConnection := SafeClose(s.poolConnection))
  }

  /** ExchangeData: the miner-to-pool direction when the miner has data, then
   *  the pool-to-miner direction when the pool has data; the first exception
   *  skips the rest and closes both connections. */
  function Exchange(s: Session, isJson: JsonOracle, answers: Responses): (r: Session)
    requires s.poolConnection.Some?
    ensures r.poolConnection.Some?
    ensures r.dispose == s.dispose && r.poolInformation == s.poolInformation
    ensures s.proxyResolvedRemoteAddress.Some? ==> r.proxyResolvedRemoteAddress == s.proxyResolvedRemoteAddress
  {
    var (s1, ok1) :=
      if s.minerConnection.Available() != 0
      then Relay(s, MinerToPool, isJson, answers.egressLookup, answers.minerPacketLogged)
      else (s, true);
    if !ok1 then Drop(s1)
    else
      var (s2, ok2) :=
        if s1.poolConnection.value.Available() != 0
        then Relay(s1, PoolToMiner, isJson, answers.egressLookup, answers.poolPacketLogged)
        else (s1, true);
      if !ok2 then Drop(s2) else s2
  }

  /** What the environment does during the Thread.Sleep(10) before an
   *  ExchangeData call. */
  function Sleep(s: Session, round: Round): (r: Session)
    requires s.poolConnection.Some?
    ensures r.poolConnection.Some?
    ensures r.minerConnection.inbox == s.minerConnection.inbox + round.fromMiner
    ensures r.poolConnection.value.inbox == s.poolConnection.value.inbox + round.fromPool
  {
    s.(minerConnection := s.minerConnection.Deliver(round.fromMiner, round.minerHangsUp),
       poolConnection := Some(s.poolConnection.value.Deliver(round.fromPool, round.poolHangsUp)))
  }

  /** The relay loop of Run, for a finite script of rounds: it goes on while
   *  both connections report Connected and the script lasts. */
  function RelayLoop(s: Session, isJson: JsonOracle, rounds: seq<Round>): (r: Session)
    requires s.poolConnection.Some?
    ensures r.poolConnection.Some?
    ensures r.dispose == s.dispose && r.poolInformation == s.poolInformation
    decreases |rounds|
  {
    if rounds == [] || !s.Relaying() then s
    else RelayLoop(Exchange(Sleep(s, rounds[0]), isJson, rounds[0].responses), isJson, rounds[1..])
  }

  /** The setup part of Run. PoolConnection is only assigned when the dial
   *  succeeds; poolInformation is assigned as soon as the lookup succeeds. */
  function Setup(s: Session, setup: SetupOutcome): (r: Session)
    ensures r.poolConnection.Some? <==> setup.Dialed? || s.poolConnection.Some?
    ensures setup.Dialed? || setup.DialFailed? ==> r.poolInformation == setup.info
    ensures setup.Dialed? ==> r.poolConnection.value.sendTimeout == 300000 && r.minerConnection.sendTimeout == 120000
    ensures !setup.Dialed? ==> r.minerConnection == s.minerConnection && r.poolConnection == s.poolConnection
    ensures setup.ProxyClientFailed? || setup.PoolLookupFailed? ==> r.poolInformation == s.poolInformation
    ensures r.dispose == s.dispose && r.proxyResolvedRemoteAddress == s.proxyResolvedRemoteAddress
  {
    match setup
    case ProxyClientFailed => s
    case PoolLookupFailed => s
    case DialFailed(info) => s.(poolInformation := info)
    case Dialed(info, pool) => WithTimeouts(s.(poolInformation := info, poolConnection := Some(pool)))
  }

  /** Run: setup, the relay loop if a pool connection exists, then
   *  `dispose = true`. A script that ends while both connections are still
   *  up leaves the session relaying (the source would go on looping). */
  function RunSpec(s: Session, setup: SetupOutcome, isJson: JsonOracle, rounds: seq<Round>): (r: Session)
    ensures !r.Relaying() ==> r.dispose
    ensures r.poolConnection.Some? <==> setup.Dialed? || s.poolConnection.Some?
    ensures !s.dispose ==> (r.dispose <==> !r.Relaying())
    ensures s.dispose ==> r.dispose
  {
    var s1 := Setup(s, setup);
    var s2 := if s1.poolConnection.Some? then RelayLoop(s1, isJson, rounds) else s1;
    if s2.Relaying() then s2 else s2.(dispose := true)
  }

  // ---------------------------------------------------------------------
  // Properties of the relay

  /** The bytes forwarded for a chunk have the chunk's length, and are the
   *  chunk itself exactly when it is all 7-bit ASCII. */
  lemma ForwardedBytes(chunk: Chunk)
    ensures |Sanitized(chunk)| == |chunk|
    ensures Sanitized(chunk) == chunk <==> AllAscii(chunk)
  {
    AsciiRoundTrip(chunk);
  }

  /** A chunk whose text fails the JSON parse is not forwarded, and the
   *  direction reports an exception. */
  lemma ParseFailureNotForwarded(s: Session, d: Direction, isJson: JsonOracle, lookup: Option<string>, logged: bool)
    requires s.poolConnection.Some? && s.Source(d).inbox != []
    requires !isJson(JsonBody(AsciiDecode(s.Source(d).inbox[0])))
    ensures var r := Relay(s, d, isJson, lookup, logged);
      !r.1 && r.0.Target(d).sent == s.Target(d).sent && r.0.parsedSerializer == s.parsedSerializer
  {
  }

  /** A chunk that parses, sent to a connected peer, is forwarded as exactly
   *  `bytesReceived` bytes; the direction then succeeds only if the backend
   *  upload (and the egress lookup it needs) succeeds. */
  lemma ParsedChunkForwarded(s: Session, d: Direction, isJson: JsonOracle, lookup: Option<string>, logged: bool)
    requires s.poolConnection.Some? && s.Source(d).inbox != []
    requires isJson(JsonBody(AsciiDecode(s.Source(d).inbox[0])))
    requires s.Target(d).Connected()
    ensures var r := Relay(s, d, isJson, lookup, logged);
      && r.0.Target(d).sent == s.Target(d).sent + [Sanitized(s.Source(d).inbox[0])]
      && |Sanitized(s.Source(d).inbox[0])| == r.0.bytesReceived
      && (r.1 <==> s.minerConnection.status != Closed && Egress(s.proxyResolvedRemoteAddress, lookup).Some? && logged)
  {
  }

  /** Within one ExchangeData call a direction with nothing available is
   *  skipped: its source keeps its queue and its target receives nothing. */
  lemma EmptyDirectionSkipped(s: Session, d: Direction, isJson: JsonOracle, answers: Responses)
    requires s.poolConnection.Some? && s.Source(d).inbox == []
    ensures var r := Exchange(s, isJson, answers);
      r.Source(d).inbox == [] && r.Target(d).sent == s.Target(d).sent
  {
  }

  /** The miner-to-pool direction is handled first: when it throws, the
   *  pool-to-miner direction is not touched in that call and both
   *  connections end up closed. */
  lemma MinerDirectionFirst(s: Session, isJson: JsonOracle, answers: Responses)
    requires s.poolConnection.Some? && s.minerConnection.inbox != []
    requires !Relay(s, MinerToPool, isJson, answers.egressLookup, answers.minerPacketLogged).1
    ensures var r := Exchange(s, isJson, answers);
      && r.poolConnection.value.inbox == s.poolConnection.value.inbox
      && r.minerConnection.sent == s.minerConnection.sent
      && !r.minerConnection.Connected() && !r.poolConnection.value.Connected()
  {
  }

  /** When the miner-to-pool direction is skipped or succeeds and the
   *  pool-to-miner direction then throws, both connections end up closed,
   *  and what the first direction sent to the pool stays sent. */
  lemma PoolDirectionFailureDrops(s: Session, isJson: JsonOracle, answers: Responses)
    requires s.poolConnection.Some?
    requires var (s1, ok1) :=
        if s.minerConnection.Available() != 0
        then Relay(s, MinerToPool, isJson, answers.egressLookup, answers.minerPacketLogged)
        else (s, true);
      && ok1 && s1.poolConnection.value.inbox != []
      && !Relay(s1, PoolToMiner, isJson, answers.egressLookup, answers.poolPacketLogged).1
    ensures var r := Exchange(s, isJson, answers);
      var (s1, _) :=
        if s.minerConnection.Available() != 0
        then Relay(s, MinerToPool, isJson, answers.egressLookup, answers.minerPacketLogged)
        else (s, true);
      && !r.minerConnection.Connected() && !r.poolConnection.value.Connected()
      && r.poolConnection.value.sent == s1.poolConnection.value.sent
  {
  }

  /** After an exception both connections are closed, the loop guard fails,
   *  and a second SafeClose changes nothing. */
  lemma DropIsFinal(s: Session, isJson: JsonOracle, rounds: seq<Round>)
    requires s.poolConnection.Some?
    ensures !Drop(s).Relaying()
    ensures RelayLoop(Drop(s), isJson, rounds) == Drop(s)
    ensures Drop(Drop(s)) == Drop(s)
  {
    SafeCloseIdempotent(Some(s.minerConnection));
    SafeCloseIdempotent(s.poolConnection);
  }

  /** One ExchangeData call, seen from one direction: the target receives
   *  nothing or the sanitised head chunk of the source; and if the session is
   *  still relaying afterwards, a non-empty source lost exactly its head and
   *  the head was forwarded. */
  lemma ExchangeStep(s: Session, d: Direction, isJson: JsonOracle, answers: Responses)
    requires s.poolConnection.Some?
    ensures var r := Exchange(s, isJson, answers);
      && (s.Source(d).inbox == [] ==> r.Target(d).sent == s.Target(d).sent && r.Source(d).inbox == [])
      && (s.Source(d).inbox != [] ==>
            || r.Target(d).sent == s.Target(d).sent
            || r.Target(d).sent == s.Target(d).sent + [Sanitized(s.Source(d).inbox[0])])
      && (s.Source(d).inbox != [] && r.Relaying() ==>
            && r.Target(d).sent == s.Target(d).sent + [Sanitized(s.Source(d).inbox[0])]
            && r.Source(d).inbox == s.Source(d).inbox[1..])
  {
    var ml := answers.minerPacketLogged;
    var pl := answers.poolPacketLogged;
    var e := answers.egressLookup;
    var (s1, ok1) := if s.minerConnection.Available() != 0 then Relay(s, MinerToPool, isJson, e, ml) else (s, true);
    if ok1 && s1.poolConnection.value.Available() != 0 {
      var (s2, ok2) := Relay(s1, PoolToMiner, isJson, e, pl);
    }
  }

  /** All chunks the script delivers to one direction's source, in order. */
  function Arrivals(rounds: seq<Round>, d: Direction): seq<Chunk>
    decreases |rounds|
  {
    if rounds == [] then [] else RoundArrivals(rounds[0], d) + Arrivals(rounds[1..], d)
  }

  function SanitizedAll(chunks: seq<Chunk>): (r: seq<seq<byte>>)
    ensures |r| == |chunks|
    ensures forall i :: 0 <= i < |chunks| ==> r[i] == Sanitized(chunks[i])
  {
    seq(|chunks|, i requires 0 <= i < |chunks| => Sanitized(chunks[i]))
  }

  /** The chunks one round delivers to a direction's source. */
  function RoundArrivals(round: Round, d: Direction): seq<Chunk> {
    if d == MinerToPool then round.fromMiner else round.fromPool
  }

  /** A step that forwards nothing, or only the head of the queue, has
   *  forwarded a prefix of the stream. */
  lemma OneStepWitness(queue: seq<Chunk>, later: seq<Chunk>, before: seq<seq<byte>>, after: seq<seq<byte>>)
    requires queue == [] ==> after == before
    requires queue != [] ==> after == before || after == before + [Sanitized(queue[0])]
    ensures exists p :: (p <= queue + later && after == before + SanitizedAll(p))
  {
    if after == before {
      assert [] <= queue + later && after == before + SanitizedAll([]);
    } else {
      assert [queue[0]] <= queue + later && after == before + SanitizedAll([queue[0]]);
    }
  }

  /** A step that forwarded the head (or found the queue empty), followed by
   *  a run that forwarded a prefix of what was left, forwarded a prefix of
   *  the whole stream. */
  lemma ConsWitness(queue: seq<Chunk>, later: seq<Chunk>, before: seq<seq<byte>>, mid: seq<seq<byte>>,
                    queue': seq<Chunk>, p': seq<Chunk>, final: seq<seq<byte>>)
    requires queue == [] ==> mid == before && queue' == []
    requires queue != [] ==> mid == before + [Sanitized(queue[0])] && queue' == queue[1..]
    requires p' <= queue' + later && final == mid + SanitizedAll(p')
    ensures exists p :: (p <= queue + later && final == before + SanitizedAll(p))
  {
    if queue == [] {
      assert p' <= queue + later && final == before + SanitizedAll(p');
    } else {
      var head := queue[0];
      assert queue + later == [head] + (queue' + later);
      assert SanitizedAll([head] + p') == [Sanitized(head)] + SanitizedAll(p');
      assert [head] + p' <= queue + later && final == before + SanitizedAll([head] + p');
    }
  }

  /** Sleeping appends the round's chunks to the stream's queue and sends
   *  nothing. */
  lemma SleepStream(s: Session, d: Direction, rounds: seq<Round>)
    requires s.poolConnection.Some? && rounds != []
    ensures Sleep(s, rounds[0]).Source(d).inbox + Arrivals(rounds[1..], d) == s.Source(d).inbox + Arrivals(rounds, d)
    ensures Sleep(s, rounds[0]).Target(d).sent == s.Target(d).sent
  {
    assert Arrivals(rounds, d) == RoundArrivals(rounds[0], d) + Arrivals(rounds[1..], d);
  }

  /** Over the whole relay loop, what one side receives is the sanitised
   *  stream of chunks the other side sent, in order, without gaps or
   *  repetitions: a prefix of everything that was queued or arrived. */
  lemma {:induction false} RelayLoopForwardsInOrder(s: Session, d: Direction, isJson: JsonOracle, rounds: seq<Round>)
    requires s.poolConnection.Some?
    ensures exists p :: (p <= s.Source(d).inbox + Arrivals(rounds, d)
      && RelayLoop(s, isJson, rounds).Target(d).sent == s.Target(d).sent + SanitizedAll(p))
    decreases |rounds|
  {
    if rounds == [] || !s.Relaying() {
      OneStepWitness([], s.Source(d).inbox + Arrivals(rounds, d), s.Target(d).sent, s.Target(d).sent);
    } else {
      var slept := Sleep(s, rounds[0]);
      var next := Exchange(slept, isJson, rounds[0].responses);
      var rest := rounds[1..];
      SleepStream(s, d, rounds);
      ExchangeStep(slept, d, isJson, rounds[0].responses);
      assert RelayLoop(s, isJson, rounds) == RelayLoop(next, isJson, rest);
      if !next.Relaying() {
        OneStepWitness(slept.Source(d).inbox, Arrivals(rest, d), s.Target(d).sent, next.Target(d).sent);
      } else {
        RelayLoopForwardsInOrder(next, d, isJson, rest);
        var p' :| p' <= next.Source(d).inbox + Arrivals(rest, d)
          && RelayLoop(next, isJson, rest).Target(d).sent == next.Target(d).sent + SanitizedAll(p');
        ConsWitness(slept.Source(d).inbox, Arrivals(rest, d), s.Target(d).sent, next.Target(d).sent,
                    next.Source(d).inbox, p', RelayLoop(next, isJson, rest).Target(d).sent);
      }
    }
  }

  /** The relay loop never sets `dispose`, never changes the pool
   *  information, and never replaces a cached egress address. */
  lemma {:induction false} RelayLoopKeepsSessionFacts(s: Session, isJson: JsonOracle, rounds: seq<Round>)
    requires s.poolConnection.Some?
    ensures var r := RelayLoop(s, isJson, rounds);
      && r.dispose == s.dispose && r.poolInformation == s.poolInformation
      && (s.proxyResolvedRemoteAddress.Some? ==> r.proxyResolvedRemoteAddress == s.proxyResolvedRemoteAddress)
    decreases |rounds|
  {
    if rounds != [] && s.Relaying() {
      RelayLoopKeepsSessionFacts(Exchange(Sleep(s, rounds[0]), isJson, rounds[0].responses), isJson, rounds[1..]);
    }
  }

  /** When the setup throws before PoolConnection is assigned, the loop never
   *  runs: nothing is received from or sent to the miner, and the session
   *  still ends disposed. */
  lemma SetupFailureNeverRelays(client: Socket, setup: SetupOutcome, isJson: JsonOracle, rounds: seq<Round>)
    requires !setup.Dialed?
    ensures var r := RunSpec(Fresh(client), setup, isJson, rounds);
      && r.dispose && r.poolConnection.None?
      && r.minerConnection == client
      && r.bytesReceived == 0 && r.incomingData == []
  {
  }

  /** Run ends with `dispose` set exactly when the loop guard failed, i.e.
   *  when the session is no longer relaying; a session that starts
   *  undisposed is disposed only by Run's last statement. */
  lemma RunDisposesWhenLoopEnds(s: Session, setup: SetupOutcome, isJson: JsonOracle, rounds: seq<Round>)
    requires !s.dispose && s.poolConnection.None?
    ensures var r := RunSpec(s, setup, isJson, rounds);
      && (r.dispose <==> !r.Relaying())
      && (s.proxyResolvedRemoteAddress.Some? ==> r.proxyResolvedRemoteAddress == s.proxyResolvedRemoteAddress)
  {
    var s1 := Setup(s, setup);
    if s1.poolConnection.Some? {
      RelayLoopKeepsSessionFacts(s1, isJson, rounds);
    }
  }

  /** Setup that dials the pool leaves a relaying session (when the miner is
   *  still connected and the new pool connection is open) with the two send
   *  timeouts set. */
  lemma DialedSessionRelays(client: Socket, info: PoolConnectionInformation, pool: Socket)
    requires client.Connected() && pool.Connected()
    ensures var s := Setup(Fresh(client), Dialed(info, pool));
      && s.Relaying()
      && s.poolInformation == info
      && s.minerConnection.sendTimeout == 120000
      && s.poolConnection.value.sendTimeout == 300000
  {
  }

  /** Where the three parts of "{context} {id}/{hostname}" sit. */
  lemma ContextShape(context: string, id: string, hostname: string)
    ensures var r := context + " " + id + "/" + hostname;
      && |r| == |context| + |id| + |hostname| + 2
      && r[..|context| + 1] == context + " "
      && r[|r| - |hostname| - 1..] == "/" + hostname
      && r[|context| + 1..|r| - |hostname| - 1] == id
  {
  }

  // ---------------------------------------------------------------------
  // The class

  /** What LogMinerPacket uploads (its form fields other than the password
   *  and the server name, which come from configuration getters that are not
   *  part of this model). */
  datatype PacketReport = PacketReport(
    minerId: string,
    userAddress: string,
    exitAddress: string,
    context: string,
    poolHostname: string,
    data: string)

  class Miner {
    const id: int
    var minerConnection: Socket
    var poolConnection: Option<Socket>
    var poolInformation: PoolConnectionInformation
    var dispose: bool
    var bytesReceived: int
    var incomingData: seq<byte>
    var incomingDataString: string
    var parsedSerializer: string
    var proxyResolvedRemoteAddress: Option<string>

    function State(): Session
      reads this
    {
      Session(minerConnection, poolConnection, poolInformation, incomingData, bytesReceived,
              incomingDataString, parsedSerializer, proxyResolvedRemoteAddress, dispose)
    }

    /** The constructor remembers the id and the accepted connection; the
     *  worker thread it starts runs `Run`. */
    constructor(minerId: int, client: Socket)
      ensures id == minerId && State() == Fresh(client)
    {
      id := minerId;
      minerConnection := client;
      poolConnection := None;
      poolInformation := NO_POOL_INFORMATION;
      dispose := false;
      bytesReceived := 0;
      incomingData := [];
      incomingDataString := "";
      parsedSerializer := "{}";
      proxyResolvedRemoteAddress := None;
    }

    /** The worker thread's body. */
    method Run(setup: SetupOutcome, isJson: JsonOracle, rounds: seq<Round>)
      requires !dispose && poolConnection.None?
      modifies this
      ensures State() == RunSpec(old(State()), setup, isJson, rounds)
    {
      OpenPoolConnection(setup);
      if poolConnection.Some? {
        RelayUntilClosed(isJson, rounds);
      }
      if minerConnection.Connected() && poolConnection.Some? && poolConnection.value.Connected() {
        // The script ended while the loop would go on.
        return;
      }
      dispose := true;
    }

    /** The `try` block at the start of Run. */
    method OpenPoolConnection(setup: SetupOutcome)
      modifies this
      ensures State() == Setup(old(State()), setup)
    {
      match setup {
        case ProxyClientFailed =>
        case PoolLookupFailed =>
        case DialFailed(info) =>
          poolInformation := info;
        case Dialed(info, pool) =>
          poolInformation := info;
          poolConnection := Some(pool);
          SetTimeouts();
      }
    }

    /** The relay loop of Run: sleep, then exchange, while both connections
     *  are up (and the script of rounds lasts). */
    method RelayUntilClosed(isJson: JsonOracle, rounds: seq<Round>)
      requires poolConnection.Some?
      modifies this
      ensures State() == RelayLoop(old(State()), isJson, rounds)
    {
      ghost var start := State();
      var i := 0;
      while i < |rounds| && minerConnection.Connected() && poolConnection.value.Connected()
        invariant 0 <= i <= |rounds|
        invariant poolConnection.Some?
        invariant RelayLoop(State(), isJson, rounds[i..]) == RelayLoop(start, isJson, rounds)
      {
        // Thread.Sleep(10): the environment acts.
        minerConnection := minerConnection.Deliver(rounds[i].fromMiner, rounds[i].minerHangsUp);
        poolConnection := Some(poolConnection.value.Deliver(rounds[i].fromPool, rounds[i].poolHangsUp));
        assert rounds[i..][1..] == rounds[i + 1..];
        ExchangeData(isJson, rounds[i].responses);
        i := i + 1;
      }
    }

    /** ExchangeData. */
    method ExchangeData(isJson: JsonOracle, answers: Responses)
      requires poolConnection.Some?
      modifies this
      ensures State() == Exchange(old(State()), isJson, answers)
    {
      var ok := true;
      if minerConnection.Available() != 0 {
        ok := RelayDirection(MinerToPool, isJson, answers.egressLookup, answers.minerPacketLogged);
      }
      if ok && poolConnection.value.Available() != 0 {
        ok := RelayDirection(PoolToMiner, isJson, answers.egressLookup, answers.poolPacketLogged);
      }
      if !ok {
        SafeCloseBoth();
      }
    }

    /** The catch block of ExchangeData. */
    method SafeCloseBoth()
      modifies this
      ensures State() == Drop(old(State()))
    {
      minerConnection := SafeClose(Some(minerConnection)).value;
      poolConnection := SafeClose(poolConnection);
    }

    /** The body of one `if (X.Available != 0)` block of ExchangeData; `ok`
     *  is false when a statement in it throws. */
    method RelayDirection(d: Direction, isJson: JsonOracle, lookup: Option<string>, logged: bool) returns (ok: bool)
      requires poolConnection.Some? && State().Source(d).inbox != []
      modifies this
      ensures (State(), ok) == Relay(old(State()), d, isJson, lookup, logged)
    {
      ReceivePacket(d);
      ok := ForwardPacket(d, isJson, lookup, logged);
    }

    /** Receive into a fresh buffer and decode the received bytes. */
    method ReceivePacket(d: Direction)
      requires poolConnection.Some? && State().Source(d).inbox != []
      modifies this
      ensures State() == ReceiveStep(old(State()), d)
    {
      incomingData := Zeros(MAX_BUFFER_SIZE);
      var chunk: Chunk;
      if d == MinerToPool {
        chunk, minerConnection := minerConnection.inbox[0], minerConnection.(inbox := minerConnection.inbox[1..]);
      } else {
        var pool := poolConnection.value;
        chunk, poolConnection := pool.inbox[0], Some(pool.(inbox := pool.inbox[1..]));
      }
      incomingData := chunk + incomingData[|chunk|..];
      assert incomingData == chunk + Zeros(MAX_BUFFER_SIZE - |chunk|);
      bytesReceived := |chunk|;
      assert incomingData[..bytesReceived] == chunk;
      incomingDataString := AsciiDecode(incomingData[..bytesReceived]);
    }

    /** Parse, send and log what ReceivePacket left in the fields. */
    method ForwardPacket(d: Direction, isJson: JsonOracle, lookup: Option<string>, logged: bool) returns (ok: bool)
      requires poolConnection.Some? && 0 < bytesReceived <= |incomingDataString|
      modifies this
      ensures (State(), ok) == ForwardStep(old(State()), d, isJson, lookup, logged)
    {
      if !isJson(JsonBody(incomingDataString)) {
        return false;
      }
      parsedSerializer := JsonBody(incomingDataString);
      var bytes := AsciiEncode(incomingDataString)[..bytesReceived];
      if d == MinerToPool {
        var sent := poolConnection.value.Send(bytes);
        if sent.None? {
          return false;
        }
        poolConnection := sent;
      } else {
        var sent := minerConnection.Send(bytes);
        if sent.None? {
          return false;
        }
        minerConnection := sent.value;
      }
      ghost var beforeLog := State();
      var report := LogMinerPacket(if d == MinerToPool then "Miner" else "Pool", incomingDataString, lookup, logged);
      ok := report.Some?;
      assert (State(), ok) == LogStep(beforeLog, lookup, logged);
    }

    /** SetTimeouts: two minutes for sends to the miner, five for sends to
     *  the pool; receive timeouts are left alone. */
    method SetTimeouts()
      requires poolConnection.Some?
      modifies this
      ensures State() == WithTimeouts(old(State()))
    {
      minerConnection := minerConnection.(sendTimeout := Minutes(2));
      poolConnection := Some(poolConnection.value.(sendTimeout := Minutes(5)));
    }

    /** GetProxyRemoteAddress: once an address is cached it is returned
     *  without a new lookup; otherwise the lookup's answer is cached and
     *  returned, and a failed lookup (`None`) leaves the cache empty. */
    method GetProxyRemoteAddress(lookup: Option<string>) returns (address: Option<string>)
      modifies this`proxyResolvedRemoteAddress
      ensures old(proxyResolvedRemoteAddress).Some? ==>
        address == old(proxyResolvedRemoteAddress) && proxyResolvedRemoteAddress == old(proxyResolvedRemoteAddress)
      ensures old(proxyResolvedRemoteAddress).None? ==>
        address == lookup && proxyResolvedRemoteAddress == lookup
    {
      if proxyResolvedRemoteAddress.None? {
        proxyResolvedRemoteAddress := lookup;
        return lookup;
      } else {
        return proxyResolvedRemoteAddress;
      }
    }

    /** LogMinerPacket: builds the form (reading the miner's remote address,
     *  then the egress address) and uploads it; `uploaded` says whether the
     *  upload succeeds. The result is the uploaded form, `None` when a step
     *  throws. */
    method LogMinerPacket(context: string, data: string, lookup: Option<string>, uploaded: bool)
      returns (report: Option<PacketReport>)
      modifies this`proxyResolvedRemoteAddress
      ensures var userAddress := minerConnection.RemoteEndPointAddress();
        && proxyResolvedRemoteAddress == (if userAddress.Some? then Egress(old(proxyResolvedRemoteAddress), lookup)
                                          else old(proxyResolvedRemoteAddress))
        && (report.Some? <==> userAddress.Some? && Egress(old(proxyResolvedRemoteAddress), lookup).Some? && uploaded)
        && (report.Some? ==> report.value == PacketReport(DecimalString(id), userAddress.value,
              Egress(old(proxyResolvedRemoteAddress), lookup).value, context, poolInformation.hostname, data))
    {
      var userAddress := minerConnection.RemoteEndPointAddress();
      if userAddress.None? {
        return None;
      }
      var exitAddress := GetProxyRemoteAddress(lookup);
      if exitAddress.None? || !uploaded {
        return None;
      }
      report := Some(PacketReport(DecimalString(id), userAddress.value, exitAddress.value,
                                  context, poolInformation.hostname, data));
    }

    /** GetMinerConnectionAddress: the miner's remote address; it throws once
     *  the miner connection has been closed. */
    function GetMinerConnectionAddress(): (r: Option<string>)
      reads this
      ensures r.Some? <==> minerConnection.status != Closed
      ensures r.Some? ==> r.value == minerConnection.remoteAddress
    {
      minerConnection.RemoteEndPointAddress()
    }

    /** LocalLoggerContextBuilder: "{context} {id}/{hostname}". The id is
     *  written in decimal and can be read back from between the space and the
     *  slash. */
    function LocalLoggerContextBuilder(context: string): (r: string)
      reads this
      requires INT32_MIN <= id <= INT32_MAX
      ensures |r| == |context| + |DecimalString(id)| + |poolInformation.hostname| + 2
      ensures r[..|context| + 1] == context + " "
      ensures r[|r| - |poolInformation.hostname| - 1..] == "/" + poolInformation.hostname
      ensures ParseInt32(r[|context| + 1..|r| - |poolInformation.hostname| - 1]) == Some(id)
    {
      ParseDecimalRoundTrip(id);
      ContextShape(context, DecimalString(id), poolInformation.hostname);
      context + " " + DecimalString(id) + "/" + poolInformation.hostname
    }

    /** CanBeDisposed: the session's termination flag. */
    function CanBeDisposed(): (r: bool)
      reads this
      ensures r <==> State().dispose
    {
      dispose
    }
  }
}

=== FILE: server.dfy ===
/** The miner registry (Router.Server): the `ConnectedMiners` list, the
 *  cleanup filter, the accept step of the listening loop, and the statistics
 *  snapshot the reporter thread builds and posts.
 *
 *  One sequential interleaving of the listener and the reporter thread is
 *  modelled: each call below runs to completion before the next starts. */
module RelayServer {
  import opened Wrappers
  import opened Sockets
  import opened RelayMiner

  /** Values the snapshot reads through Miner members that Miner.cs does not
   *  define (GetMinerIdentificationNumber and the user_id, pool_id, name,
   *  packets_sent and bandwidth fields of the pool information), already
   *  rendered as the strings the snapshot stores. */
  datatype AbsentFields = AbsentFields(
    minerId: string,
    userId: string,
    poolId: string,
    poolName: string,
    packetsSent: string,
    bandwidth: string)

  /** What one miner's snapshot entry needs from outside the model: the
   *  absent fields, and the answer of the egress-address lookup (`None`: the
   *  lookup throws). */
  datatype MinerProbe = MinerProbe(absent: AbsentFields, egressLookup: Option<string>)

  /** One element of the `miner_json` array. */
  datatype MinerEntry = MinerEntry(
    minerId: string,
    userId: string,
    poolId: string,
    poolName: string,
    poolHostname: string,
    packetsSent: string,
    bandwidth: string,
    minerAddress: string,
    exitAddress: string)

  /** The form LogServerStatistics posts (besides the password, server name
   *  and broadcast hostname, which come from configuration getters that are
   *  not part of this model). */
  datatype StatisticsPost = StatisticsPost(connections: int, minerJson: seq<MinerEntry>)

  /** How LogServerStatistics ends: an exception while building the entry of
   *  the miner at `at` escapes the method (it is outside the `try`); or the
   *  post is attempted and fails (caught and logged); or it succeeds. */
  datatype StatisticsOutcome =
    | Escaped(at: nat)
    | PostFailed(post: StatisticsPost)
    | Posted(post: StatisticsPost)

  /** The snapshot of the whole list: every entry, or the index of the first
   *  miner whose entry throws. */
  datatype Snapshot = Complete(entries: seq<MinerEntry>) | FailedAt(index: nat)

  /** The miners `Cleanup` keeps: those whose CanBeDisposed() is false, in
   *  list order. */
  function LiveMiners(ms: seq<Miner>): (r: seq<Miner>)
    reads ms
    ensures forall i :: 0 <= i < |r| ==> r[i] in ms && !r[i].dispose
    ensures forall i :: 0 <= i < |ms| && !ms[i].dispose ==> ms[i] in r
    ensures |r| <= |ms|
    decreases |ms|
  {
    if ms == [] then []
    else (if ms[0].dispose then [] else [ms[0]]) + LiveMiners(ms[1..])
  }

  /** Filtering commutes with concatenation, so the kept miners stay in their
   *  original relative order. */
  lemma {:induction false} LiveMinersConcat(a: seq<Miner>, b: seq<Miner>)
    ensures LiveMiners(a + b) == LiveMiners(a) + LiveMiners(b)
    decreases |a|
  {
    if a == [] {
      assert a + b == b;
    } else {
      assert (a + b)[1..] == a[1..] + b;
      LiveMinersConcat(a[1..], b);
    }
  }

  /** A second Cleanup with no flag change removes nothing. */
  lemma {:induction false} LiveMinersIdempotent(ms: seq<Miner>)
    ensures LiveMiners(LiveMiners(ms)) == LiveMiners(ms)
    decreases |ms|
  {
    if ms != [] {
      var head := if ms[0].dispose then [] else [ms[0]];
      LiveMinersConcat(head, LiveMiners(ms[1..]));
      LiveMinersIdempotent(ms[1..]);
      assert LiveMiners(head) == head by {
        if head != [] {
          assert head[1..] == [];
        }
      }
    }
  }

  /** When no listed miner is disposed, Cleanup keeps the list as it is. */
  lemma {:induction false} LiveMinersAllLive(ms: seq<Miner>)
    requires forall i :: 0 <= i < |ms| ==> !ms[i].dispose
    ensures LiveMiners(ms) == ms
    decreases |ms|
  {
    if ms != [] {
      LiveMinersAllLive(ms[1..]);
    }
  }

  predicate Distinct(ms: seq<Miner>) {
    forall i, j :: 0 <= i < j < |ms| ==> ms[i] != ms[j]
  }

  /** Filtering a list without repeated miners gives one without repeats. */
  lemma {:induction false} LiveMinersDistinct(ms: seq<Miner>)
    requires Distinct(ms)
    ensures Distinct(LiveMiners(ms))
    decreases |ms|
  {
    if ms != [] {
      LiveMinersDistinct(ms[1..]);
      var rest := LiveMiners(ms[1..]);
      assert ms[0] !in ms[1..];
      assert ms[0] !in rest;
    }
  }

  /** One element of `miner_json`, built from the miner in list order:
   *  the absent fields, the pool hostname, then the miner's remote address
   *  (which throws once the miner connection is closed) and the egress
   *  address (cached or looked up). */
  function EntryFor(m: Miner, probe: MinerProbe): (r: Option<MinerEntry>)
    reads m
    ensures r.Some? <==> (m.minerConnection.status != Closed
                          && Egress(m.proxyResolvedRemoteAddress, probe.egressLookup).Some?)
    ensures r.Some? ==> && r.value.minerAddress == m.minerConnection.remoteAddress
                        && r.value.exitAddress == Egress(m.proxyResolvedRemoteAddress, probe.egressLookup).value
                        && r.value.poolHostname == m.poolInformation.hostname
                        && r.value.minerId == probe.absent.minerId
  {
    match m.GetMinerConnectionAddress()
    case None => None
    case Some(minerAddress) =>
      match Egress(m.proxyResolvedRemoteAddress, probe.egressLookup)
      case None => None
      case Some(exitAddress) =>
        var a := probe.absent;
        Some(MinerEntry(a.minerId, a.userId, a.poolId, a.poolName, m.poolInformation.hostname,
                        a.packetsSent, a.bandwidth, minerAddress, exitAddress))
  }

  /** The `foreach` of LogServerStatistics, as a function of the list: one
   *  entry per miner in list order, or the first miner whose entry throws. */
  function SnapshotOf(ms: seq<Miner>, probes: seq<MinerProbe>): (r: Snapshot)
    reads ms
    requires |probes| == |ms|
    ensures r.Complete? ==> (|r.entries| == |ms|
      && forall j :: 0 <= j < |ms| ==> EntryFor(ms[j], probes[j]) == Some(r.entries[j]))
    ensures r.FailedAt? ==> (r.index < |ms| && EntryFor(ms[r.index], probes[r.index]).None?
      && forall j :: 0 <= j < r.index ==> EntryFor(ms[j], probes[j]).Some?)
    decreases |ms|
  {
    if ms == [] then Complete([])
    else match EntryFor(ms[0], probes[0])
      case None => FailedAt(0)
      case Some(e) =>
        match SnapshotOf(ms[1..], probes[1..])
        case Complete(es) => Complete([e] + es)
        case FailedAt(k) => FailedAt(k + 1)
  }

  /** The outcome of LogServerStatistics given its snapshot, the miner count
   *  and whether the upload succeeds. */
  function Report(snapshot: Snapshot, count: int, uploaded: bool): (r: StatisticsOutcome)
    ensures r.Escaped? <==> snapshot.FailedAt?
    ensures r.Posted? <==> snapshot.Complete? && uploaded
    ensures !r.Escaped? ==> r.post == StatisticsPost(count, snapshot.entries)
  {
    match snapshot
    case FailedAt(k) => Escaped(k)
    case Complete(es) => if uploaded then Posted(StatisticsPost(count, es)) else PostFailed(StatisticsPost(count, es))
  }

  /** A snapshot is complete exactly when every listed miner's connection is
   *  still open and an egress address is cached or can be looked up; then it
   *  has one entry per miner, in list order. */
  lemma SnapshotCompleteIff(ms: seq<Miner>, probes: seq<MinerProbe>)
    requires |probes| == |ms|
    ensures SnapshotOf(ms, probes).Complete? <==>
      forall j :: 0 <= j < |ms| ==> (ms[j].minerConnection.status != Closed
        && Egress(ms[j].proxyResolvedRemoteAddress, probes[j].egressLookup).Some?)
  {
    var r := SnapshotOf(ms, probes);
    if r.FailedAt? {
      var k := r.index;
      assert EntryFor(ms[k], probes[k]).None?;
    }
  }

  class Server {
    var connectedMiners: seq<Miner>

    /** The list holds each session object once. */
    ghost predicate Valid()
      reads this
    {
      Distinct(connectedMiners)
    }

    constructor()
      ensures connectedMiners == [] && Valid()
    {
      connectedMiners := [];
    }

    /** Cleanup: reassign the list to the miners that cannot be disposed. */
    method Cleanup()
      requires Valid()
      modifies this`connectedMiners
      ensures connectedMiners == old(LiveMiners(connectedMiners)) && Valid()
    {
      LiveMinersDistinct(connectedMiners);
      connectedMiners := LiveMiners(connectedMiners);
    }

    /** GetMinerCount: the number of listed miners. */
    function GetMinerCount(): (n: int)
      reads this
      ensures n == |connectedMiners|
    {
      |connectedMiners|
    }

    /** One iteration of the listening loop in Work, after AcceptTcpClient
     *  returned `client`: cleanup, then a new Miner whose id is the count
     *  after cleanup plus one, appended last. */
    method AcceptStep(client: Socket) returns (newMiner: Miner)
      requires Valid()
      modifies this`connectedMiners
      ensures fresh(newMiner) && newMiner.State() == Fresh(client)
      ensures newMiner.id == |old(LiveMiners(connectedMiners))| + 1
      ensures connectedMiners == old(LiveMiners(connectedMiners)) + [newMiner]
      ensures GetMinerCount() == |old(LiveMiners(connectedMiners))| + 1
      ensures Valid()
    {
      Cleanup();
      newMiner := new Miner(GetMinerCount() + 1, client);
      connectedMiners := connectedMiners + [newMiner];
    }

    /** LogServerStatistics: the `foreach` builds one entry per miner (filling
     *  each miner's egress cache on the way), then the post is attempted;
     *  a failed post is caught. The list itself never changes. */
    method LogServerStatistics(probes: seq<MinerProbe>, uploaded: bool) returns (outcome: StatisticsOutcome)
      requires Valid() && |probes| == |connectedMiners|
      modifies connectedMiners`proxyResolvedRemoteAddress
      ensures connectedMiners == old(connectedMiners)
      ensures outcome == Report(old(SnapshotOf(connectedMiners, probes)), |connectedMiners|, uploaded)
      ensures forall j :: 0 <= j < |connectedMiners| && (outcome.Escaped? ==> j < outcome.at) ==>
        connectedMiners[j].proxyResolvedRemoteAddress ==
          Egress(old(connectedMiners[j].proxyResolvedRemoteAddress), probes[j].egressLookup)
      ensures outcome.Escaped? ==> forall j :: outcome.at <= j < |connectedMiners| ==>
        connectedMiners[j].proxyResolvedRemoteAddress == old(connectedMiners[j].proxyResolvedRemoteAddress)
    {
      var entries: seq<MinerEntry> := [];
      var i := 0;
      while i < |connectedMiners|
        invariant 0 <= i <= |connectedMiners| && |entries| == i
        invariant forall j :: 0 <= j < i ==> old(EntryFor(connectedMiners[j], probes[j])) == Some(entries[j])
        invariant forall j :: 0 <= j < i ==> (connectedMiners[j].proxyResolvedRemoteAddress ==
          Egress(old(connectedMiners[j].proxyResolvedRemoteAddress), probes[j].egressLookup))
        invariant forall j :: i <= j < |connectedMiners| ==>
          connectedMiners[j].proxyResolvedRemoteAddress == old(connectedMiners[j].proxyResolvedRemoteAddress)
      {
        var miner := connectedMiners[i];
        var minerAddress := miner.GetMinerConnectionAddress();
        if minerAddress.None? {
          outcome := Escaped(i);
          assert old(EntryFor(connectedMiners[i], probes[i])).None?;
          return;
        }
        var exitAddress := miner.GetProxyRemoteAddress(probes[i].egressLookup);
        if exitAddress.None? {
          assert miner.proxyResolvedRemoteAddress == old(miner.proxyResolvedRemoteAddress);
          outcome := Escaped(i);
          assert old(EntryFor(connectedMiners[i], probes[i])).None?;
          return;
        }
        var a := probes[i].absent;
        entries := entries + [MinerEntry(a.minerId, a.userId, a.poolId, a.poolName, miner.poolInformation.hostname,
                                         a.packetsSent, a.bandwidth, minerAddress.value, exitAddress.value)];
        i := i + 1;
      }
      assert old(SnapshotOf(connectedMiners, probes)) == Complete(entries);
      var post := StatisticsPost(GetMinerCount(), entries);
      if uploaded {
        outcome := Posted(post);
      } else {
        outcome := PostFailed(post);
      }
    }

    /** One iteration of ReportThread's loop: Cleanup, then the statistics. */
    method ReportRound(probes: seq<MinerProbe>, uploaded: bool) returns (outcome: StatisticsOutcome)
      requires Valid() && |probes| == |LiveMiners(connectedMiners)|
      modifies this`connectedMiners, connectedMiners`proxyResolvedRemoteAddress
      ensures connectedMiners == old(LiveMiners(connectedMiners)) && Valid()
      ensures outcome == Report(old(SnapshotOf(LiveMiners(connectedMiners), probes)), |connectedMiners|, uploaded)
    {
      Cleanup();
      outcome := LogServerStatistics(probes, uploaded);
    }
  }

  /** Ids are not unique among live miners: with miners 1 and 2 listed and
   *  miner 1's session over, the next accepted miner also gets id 2, and
   *  both miners with id 2 are live and listed. */
  method DuplicateIdScenario(client: Socket, isJson: JsonOracle) returns (server: Server, second: Miner, third: Miner)
    ensures second != third && second.id == third.id == 2
    ensures !second.dispose && !third.dispose
    ensures second in server.connectedMiners && third in server.connectedMiners
  {
    server := new Server();
    var first := server.AcceptStep(client);
    second := server.AcceptStep(client);
    first.Run(ProxyClientFailed, isJson, []);
    third := server.AcceptStep(client);
  }
}

=== FILE: sockets.dfy ===
/** The TCP connections a miner session holds (System.Net.Sockets.TcpClient),
 *  as values. A connection is a queue of chunks waiting to be received, the
 *  list of byte blocks sent through it so far, its two timeouts, the remote
 *  address it was accepted from or dialled to, and its status. */
module Sockets {
  import opened Wrappers
  import opened Text

  /** Size of the receive buffer a miner session allocates (Miner.MAX_BUFFER_SIZE). */
  const MAX_BUFFER_SIZE: nat := 4096

  /** The bytes one Receive into a MAX_BUFFER_SIZE buffer returns while data
   *  is available: at least one, at most the buffer's size. */
  type Chunk = s: seq<byte> | 0 < |s| <= MAX_BUFFER_SIZE witness [0]

  /** `Open`: Connected is true. `PeerClosed`: the other side went away, so
   *  Connected is false but the object is still usable. `Closed`: Close() was
   *  called here; the underlying Socket (TcpClient.Client) is gone. */
  datatype Status = Open | PeerClosed | Closed

  datatype Socket = Socket(
    status: Status,
    remoteAddress: string,
    inbox: seq<Chunk>,
    sent: seq<seq<byte>>,
    sendTimeout: int,
    receiveTimeout: int)
  {
    /** TcpClient.Connected */
    predicate Connected() {
      status == Open
    }

    /** TcpClient.Available: the number of bytes waiting to be received. */
    function Available(): (n: nat)
      ensures n == 0 <==> inbox == []
    {
      PendingBytes(inbox)
    }

    /** Client.Receive(buffer): the next chunk, and the connection without it. */
    function Receive(): (r: (Chunk, Socket))
      requires inbox != []
      ensures [r.0] + r.1.inbox == inbox
      ensures r.1 == this.(inbox := r.1.inbox)
    {
      (inbox[0], this.(inbox := inbox[1..]))
    }

    /** Client.Send(bytes, 0, bytes.Length, SocketFlags.None); sending on a
     *  connection that is not connected throws (`None`). */
    function Send(bytes: seq<byte>): (r: Option<Socket>)
      ensures r.Some? <==> Connected()
      ensures r.Some? ==> r.value.sent == sent + [bytes] && r.value.inbox == inbox
    {
      if Connected() then Some(this.(sent := sent + [bytes])) else None
    }

    /** ((IPEndPoint)Client.RemoteEndPoint).Address.ToString(): after Close()
     *  `Client` is null and the expression throws (`None`). */
    function RemoteEndPointAddress(): (r: Option<string>)
      ensures r.Some? <==> status != Closed
      ensures r.Some? ==> r.value == remoteAddress
    {
      if status == Closed then None else Some(remoteAddress)
    }

    /** What the environment does to a connection while the session sleeps:
     *  new chunks arrive and the peer may hang up. */
    function Deliver(chunks: seq<Chunk>, hangUp: bool): (r: Socket)
      ensures r.inbox == inbox + chunks && r.sent == sent
      ensures r.Connected() <==> Connected() && !hangUp
      ensures r.status == Closed <==> status == Closed
    {
      this.(inbox := inbox + chunks, status := if hangUp && status == Open then PeerClosed else status)
    }
  }

  /** Total number of bytes in a queue of chunks. */
  function PendingBytes(chunks: seq<Chunk>): (n: nat)
    ensures n == 0 <==> chunks == []
    ensures n >= |chunks|
  {
    if chunks == [] then 0 else |chunks[0]| + PendingBytes(chunks[1..])
  }

  /** Miner.SafeClose: a null client is left alone, a connected one is closed,
   *  one that is no longer connected is left as it is. */
  function SafeClose(client: Option<Socket>): (r: Option<Socket>)
    ensures r.None? <==> client.None?
    ensures r.Some? ==> !r.value.Connected()
    ensures r.Some? ==> r.value == client.value.(status := r.value.status)
    ensures r.Some? && client.value.Connected() ==> r.value.status == Closed
    ensures r.Some? && !client.value.Connected() ==> r.value == client.value
  {
    match client
    case None => None
    case Some(c) => if c.Connected() then Some(c.(status := Closed)) else Some(c)
  }

  /** Closing twice is the same as closing once. */
  lemma SafeCloseIdempotent(client: Option<Socket>)
    ensures SafeClose(SafeClose(client)) == SafeClose(client)
  {
  }
}

=== FILE: text.dfy ===
/** Text and byte helpers of the .NET runtime that the router relies on:
 *  the ASCII codec (Encoding.ASCII), decimal printing of an Int32
 *  (Int32.ToString), int.Parse, and the part of String.Format the router's
 *  format strings use. */
module Text {
  import opened Wrappers

  newtype byte = x: int | 0 <= x < 256

  const INT32_MIN: int := -0x8000_0000
  const INT32_MAX: int := 0x7FFF_FFFF

  /** C#'s `int` / `Int32`. */
  type Int32 = x: int | INT32_MIN <= x <= INT32_MAX

  /** Encoding.ASCII substitutes '?' (0x3F) for anything outside 7-bit ASCII. */
  const REPLACEMENT: byte := 0x3F

  predicate AllAscii(bs: seq<byte>) {
    forall i :: 0 <= i < |bs| ==> bs[i] < 128
  }

  /** Encoding.ASCII.GetString(bytes, 0, count): one char per byte, '?' for
   *  every byte above 0x7F. */
  function AsciiDecode(bs: seq<byte>): (s: string)
    ensures |s| == |bs|
    ensures forall i :: 0 <= i < |bs| ==> (s[i] == bs[i] as int as char <==> bs[i] < 128)
  {
    seq(|bs|, i requires 0 <= i < |bs| => if bs[i] < 128 then bs[i] as int as char else '?')
  }

  /** Encoding.ASCII.GetBytes(string): one byte per char, 0x3F for every char
   *  above U+007F. */
  function AsciiEncode(s: string): (bs: seq<byte>)
    ensures |bs| == |s|
    ensures AllAscii(bs)
  {
    seq(|s|, i requires 0 <= i < |s| => if s[i] as int < 128 then s[i] as int as byte else REPLACEMENT)
  }

  /** What the relay writes after decoding `bs` as ASCII and encoding it
   *  again: the same number of bytes, each non-ASCII byte replaced by '?'. */
  function Sanitized(bs: seq<byte>): (r: seq<byte>)
    ensures |r| == |bs|
    ensures forall i :: 0 <= i < |bs| ==> r[i] == if bs[i] < 128 then bs[i] else REPLACEMENT
  {
    AsciiEncode(AsciiDecode(bs))
  }

  /** The ASCII round trip reproduces the bytes exactly when, and only when,
   *  every byte is 7-bit ASCII. */
  lemma AsciiRoundTrip(bs: seq<byte>)
    ensures Sanitized(bs) == bs <==> AllAscii(bs)
  {
    if Sanitized(bs) == bs {
      forall i | 0 <= i < |bs| ensures bs[i] < 128 {
        assert Sanitized(bs)[i] == bs[i];
      }
    }
  }

  // ---------------------------------------------------------------------
  // Decimal numbers

  predicate IsDigit(c: char) { '0' <= c <= '9' }

  predicate AllDigits(s: string) {
    forall i :: 0 <= i < |s| ==> IsDigit(s[i])
  }

  function DigitChar(d: nat): (c: char)
    requires d < 10
    ensures IsDigit(c) && c as int - '0' as int == d
  {
    ('0' as int + d) as char
  }

  /** The decimal digits of `n`, most significant first, without leading zeros. */
  function Digits(n: nat): (s: string)
    ensures 0 < |s| && AllDigits(s)
    ensures n == 0 <==> s == "0"
    decreases n
  {
    if n < 10 then [DigitChar(n)] else Digits(n / 10) + [DigitChar(n % 10)]
  }

  /** The number a string of decimal digits denotes. */
  function DigitsValue(s: string): nat
    requires AllDigits(s)
    decreases |s|
  {
    if s == [] then 0 else DigitsValue(s[..|s| - 1]) * 10 + (s[|s| - 1] as int - '0' as int)
  }

  lemma {:induction false} DigitsRoundTrip(n: nat)
    ensures DigitsValue(Digits(n)) == n
    decreases n
  {
    if n >= 10 {
      var s := Digits(n / 10) + [DigitChar(n % 10)];
      assert s[..|s| - 1] == Digits(n / 10);
      DigitsRoundTrip(n / 10);
    }
  }

  /** Int32.ToString() in the invariant culture: an optional '-' and the digits. */
  function DecimalString(n: int): (s: string)
    ensures 0 < |s| && IsDigit(s[|s| - 1])
    ensures s[0] == '-' <==> n < 0
    ensures n >= 0 ==> AllDigits(s)
  {
    if n < 0 then "-" + Digits(-n) else Digits(n)
  }

  /** The white space int.Parse skips around a number: U+0009 to U+000D and
   *  the space. */
  predicate IsWhite(c: char) { c == ' ' || '\t' <= c <= '\r' }

  function TrimWhite(s: string): (t: string)
    ensures |t| <= |s|
    ensures |s| > 0 && !IsWhite(s[0]) && !IsWhite(s[|s| - 1]) ==> t == s
  {
    TrimEnd(TrimStart(s))
  }

  function TrimStart(s: string): (t: string)
    ensures |t| <= |s|
    ensures |s| > 0 && !IsWhite(s[0]) ==> t == s
    decreases |s|
  {
    if |s| > 0 && IsWhite(s[0]) then TrimStart(s[1..]) else s
  }

  function TrimEnd(s: string): (t: string)
    ensures |t| <= |s|
    ensures |s| > 0 && !IsWhite(s[|s| - 1]) ==> t == s
    decreases |s|
  {
    if |s| > 0 && IsWhite(s[|s| - 1]) then TrimEnd(s[..|s| - 1]) else s
  }

  /** int.Parse(s) with the default NumberStyles.Integer: surrounding white
   *  space, one optional sign, at least one decimal digit, and a value that
   *  fits in an Int32. `None` stands for the FormatException or
   *  OverflowException int.Parse throws otherwise. */
  function ParseInt32(s: string): (r: Option<Int32>)
    ensures s == [] ==> r.None?
    ensures r.Some? ==> TrimWhite(s) != []
  {
    var t := TrimWhite(s);
    var signed := |t| > 0 && (t[0] == '-' || t[0] == '+');
    var body := if signed then t[1..] else t;
    if body == [] || !AllDigits(body) then None
    else
      var v: int := if signed && t[0] == '-' then -(DigitsValue(body) as int) else DigitsValue(body);
      if INT32_MIN <= v <= INT32_MAX then Some(v) else None
  }

  /** A plain string of decimal digits whose value fits parses to that
   *  value. */
  lemma ParseDigits(s: string)
    requires s != [] && AllDigits(s) && DigitsValue(s) <= INT32_MAX
    ensures ParseInt32(s) == Some(DigitsValue(s))
  {
    assert TrimWhite(s) == s;
  }

  /** int.Parse throws a FormatException on text (without surrounding white
   *  space) holding a character that is neither a digit nor a leading
   *  sign. */
  lemma ParseRejectsNonDigit(s: string, i: nat)
    requires |s| > 0 && !IsWhite(s[0]) && !IsWhite(s[|s| - 1])
    requires i < |s| && !IsDigit(s[i]) && (i > 0 || (s[0] != '-' && s[0] != '+'))
    ensures ParseInt32(s).None?
  {
    assert TrimWhite(s) == s;
    if s[0] == '-' || s[0] == '+' {
      assert s[1..][i - 1] == s[i];
    }
  }

  /** int.Parse throws an OverflowException on a digit string whose value
   *  exceeds Int32.MaxValue. */
  lemma ParseOverflow(s: string)
    requires s != [] && AllDigits(s) && DigitsValue(s) > INT32_MAX
    ensures ParseInt32(s).None?
  {
    assert TrimWhite(s) == s;
  }

  /** A successful parse means the trimmed text is an optional sign followed
   *  by at least one digit, and the result is the signed value of those
   *  digits. */
  lemma ParseSuccessMeaning(s: string)
    requires ParseInt32(s).Some?
    ensures var t := TrimWhite(s);
      && |t| > 0
      && var body := if t[0] == '-' || t[0] == '+' then t[1..] else t;
      && body != [] && AllDigits(body)
      && ParseInt32(s).value == (if t[0] == '-' then -(DigitsValue(body) as int) else DigitsValue(body) as int)
  {
  }

  /** Printing an Int32 and parsing it back gives the same number. */
  lemma ParseDecimalRoundTrip(n: Int32)
    ensures ParseInt32(DecimalString(n)) == Some(n)
  {
    var s := DecimalString(n);
    if n < 0 {
      assert TrimWhite(s) == s;
      assert s[1..] == Digits(-(n as int));
      DigitsRoundTrip(-(n as int));
    } else {
      DigitsRoundTrip(n);
      ParseDigits(s);
    }
  }

  // ---------------------------------------------------------------------
  // Composite formatting

  predicate NoBraces(s: string) {
    forall i :: 0 <= i < |s| ==> s[i] != '{' && s[i] != '}'
  }

  function Prepend(p: string, r: Option<string>): (q: Option<string>)
    ensures q.Some? <==> r.Some?
  {
    match r
    case None => None
    case Some(s) => Some(p + s)
  }

  /** String.Format(fmt, args) for format items without alignment or format
   *  string and with a one-digit index: "{n}" inserts args[n], "{{" and "}}"
   *  stand for one brace. Any other brace, or an index with no argument, is
   *  the FormatException String.Format throws (`None`). */
  function Format(fmt: string, args: seq<string>): (r: Option<string>)
    ensures fmt == [] ==> r == Some("")
    ensures |fmt| >= 1 && fmt[0] == '}' && (|fmt| == 1 || fmt[1] != '}') ==> r.None?
    ensures (|fmt| >= 3 && fmt[0] == '{' && IsDigit(fmt[1]) && fmt[2] == '}'
             && fmt[1] as int - '0' as int >= |args|) ==> r.None?
    decreases |fmt|
  {
    if fmt == [] then Some("")
    else if fmt[0] == '{' then
      if |fmt| >= 2 && fmt[1] == '{' then Prepend("{", Format(fmt[2..], args))
      else if |fmt| >= 3 && IsDigit(fmt[1]) && fmt[2] == '}' then
        var i := fmt[1] as int - '0' as int;
        if i < |args| then Prepend(args[i], Format(fmt[3..], args)) else None
      else None
    else if fmt[0] == '}' then
      if |fmt| >= 2 && fmt[1] == '}' then Prepend("}", Format(fmt[2..], args)) else None
    else Prepend([fmt[0]], Format(fmt[1..], args))
  }

  /** Text without braces is copied to the output unchanged. */
  lemma {:induction false} FormatLiteral(lit: string, rest: string, args: seq<string>)
    requires NoBraces(lit)
    ensures Format(lit + rest, args) == Prepend(lit, Format(rest, args))
    decreases |lit|
  {
    if lit != [] {
      var fmt := lit + rest;
      assert fmt[0] == lit[0] && fmt[0] != '{' && fmt[0] != '}';
      assert fmt[1..] == lit[1..] + rest;
      FormatLiteral(lit[1..], rest, args);
      assert Format(fmt, args) == Prepend([lit[0]], Format(lit[1..] + rest, args));
      match Format(rest, args)
      case None =>
      case Some(tail) =>
        calc {
          Format(fmt, args);
          Prepend([lit[0]], Format(lit[1..] + rest, args));
          Prepend([lit[0]], Some(lit[1..] + tail));
          { assert [lit[0]] + (lit[1..] + tail) == lit + tail; }
          Some(lit + tail);
        }
    } else {
      assert lit + rest == rest;
      match Format(rest, args)
      case None =>
      case Some(tail) => assert lit + tail == tail;
    }
  }

  /** A format item "{i}" is replaced by the i-th argument, and the text
   *  after it is formatted on. */
  lemma FormatItem(i: nat, rest: string, args: seq<string>)
    requires i < 10 && i < |args|
    ensures Format(['{', DigitChar(i), '}'] + rest, args) == Prepend(args[i], Format(rest, args))
  {
    var fmt := ['{', DigitChar(i), '}'] + rest;
    assert fmt[3..] == rest;
  }

  /** FormatLiteral, for a rest that formats to `tail`. */
  lemma FormatLiteralThen(lit: string, rest: string, args: seq<string>, tail: string)
    requires NoBraces(lit) && Format(rest, args) == Some(tail)
    ensures Format(lit + rest, args) == Some(lit + tail)
  {
    FormatLiteral(lit, rest, args);
  }

  /** FormatItem, for a rest that formats to `tail`. */
  lemma FormatItemThen(i: nat, rest: string, args: seq<string>, tail: string)
    requires i < 10 && i < |args| && Format(rest, args) == Some(tail)
    ensures Format(['{', DigitChar(i), '}'] + rest, args) == Some(args[i] + tail)
  {
    FormatItem(i, rest, args);
  }
}

=== FILE: wrappers.dfy ===
/** The optional-value datatype the model uses for a C# reference that may be
 *  null and for an operation that may throw. */
module Wrappers {

  datatype Option<+T> = None | Some(value: T)
}
